=== FILE: README.md ===
# minioc container model

A Dafny model of the `minioc` inversion-of-control container: `ApplicationBeanManager`,
the `Resource` record it keeps for each binding, and the `ResourceManager` contract it
implements.

Every public operation of the container except `listBeans` and `startAll` runs under one
lock, and those two take the lock only inside each `getBean` they call. Each operation is
modelled as one atomic step, and the two listings as a sequence of lookups over a given
name order. It is a pure function from a `Container` state to a `Step`, which pairs the
new state with either a result or an `Error`. Operations that fail part-way still return
their new state. This makes the source's lack of rollback visible: names inserted before
a duplicate stay bound, and a construction that fails leaves its resource under
construction for good.

Java reflection is replaced by a fixed `Universe` of class descriptors (`Types.TypeDesc`).
Each descriptor gives:
- the class name and its `@Bean` names;
- the set of classes it is assignable to (reflexive, transitive, always including `Object`);
- the number of public constructors;
- the constructor parameters, `@Inject` fields and `@Inject` methods, each dependency with
  an optional `@Inject` name and a declared class;
- whether it implements `LifeCycle`;
- whether its constructor throws, and what.

Objects are identities tagged with their runtime class:
- `External` objects come from the caller; the container itself is `External(0, ApplicationBeanManager)`.
- `Made` objects are built by the container, numbered from a counter.

The `onStart` and `onShutdown` hook calls are appended to a `trace` of events. Once-only
and ordering claims are statements about that trace.

Modules:
- `Wrappers`: `Option`, `Result`.
- `Types`: class descriptors, assignability, dependency points, dependency names.
- `Errors`: the exception kinds and the unsatisfied-dependency cause chain.
- `Resources`: the `Resource` record and its mutators.
- `ManagerState`: the container state, its invariant `Valid`, and the relation `Evolves`.
  `Evolves` is how a lookup may change the state.
- `Lifecycle`: start on first retrieval, and shutdown.
- `Binding`: the constructor, every `bind*`, and `register`.
- `Lookup`: `getBean`, construction, and dependency resolution. These functions are
  mutually recursive. They terminate because each construction first marks its resource
  under construction. So the number of resources that could still begin a construction
  (`Resources.Unbuilt`) bounds the depth.
- `Listing`: `listBeans` and `startAll`.
- `Properties`: lemmas relating several operations.
- `Sessions`: any sequence of public calls, and what holds over the container's whole life.
- `Wiring`: when a class with dependencies is built, and how a resolution of several
  dependencies fails.
- `Scenarios`: concrete runs on a small class universe. `ApiTestBean` implements `Runnable`
  and `Callable`, as the unit tests use it, and those runs follow the tests. `Engine` and
  `Car` are made up for this model and have no counterpart in the tests: `Engine`'s
  constructor throws and `Car`'s constructor takes an `Engine`. Each scenario is proved for
  every universe that agrees with that one on the classes it uses (`Scenarios.World`).
- `Injection`: the runs of the unit tests `testSimpleInject` and
  `testSlightlyMoreComplicatedCase`. The sources of their test classes `SimpleClass` and
  `MoreComplicatedClass` are not part of this model. Their descriptors are assumptions
  made from how the tests use them: `SimpleClass` has an `@Inject` field of type
  `ResourceManager`, and `MoreComplicatedClass` has one public constructor, taking a
  `SimpleClass`.

The invariant `ManagerState.Valid` holds in every reachable state. Every operation
requires it and ensures it again. It says:
- every bound name points at a resource;
- the started list has no repeats;
- a resource is on the started list exactly when its bean is a started `LifeCycle` bean;
- while running, the trace is exactly one `onStart` per started-list entry, in list order;
- every object injected into a built bean is the bean its dependency resolves to, and that
  bean is started;
- on the started list, every resource comes after the resources its object depends on.

Two consequences of the code that the interface's documentation does not spell out:
- Every `getBean` after `shutdown` is refused (`ApplicationBeanManager.java:174-177`), even
  for beans already built. This agrees with `ResourceManager.java:215-216`, which says every
  bind and getBean method throws once the container is shut down.
- `shutdown` has no state guard (`ApplicationBeanManager.java:369-385`). A second call runs
  every `onShutdown` hook again, and `ShutdownTwice` states this.

## Model

| member | source | states |
|---|---|---|
| Resources.NewSlot | minioc/src/main/java/org/yldt/ioc/Resource.java:34-39 | a new resource has the given class and names, no object, and is neither under construction nor started |
| Resources.SetObject | minioc/src/main/java/org/yldt/ioc/Resource.java:49-51 | sets the object; class, names and both flags are unchanged |
| Resources.SetUnderConstruction | minioc/src/main/java/org/yldt/ioc/Resource.java:61-63 | sets the flag; class, names, object and started flag are unchanged |
| Resources.MarkStarted | minioc/src/main/java/org/yldt/ioc/Resource.java:57-59 | the resource is started afterwards; nothing else changes |
| Resources.UnbuiltMonotone | minioc/src/main/java/org/yldt/ioc/Resource.java:28-32 | when each resource evolves (class and names fixed, object never replaced, started never reset), the count of resources that could still start a construction does not grow |
| Resources.UnbuiltDrops | minioc/src/main/java/org/yldt/ioc/ApplicationBeanManager.java:225 | marking an unbuilt resource under construction lowers that count by exactly one |
| Types.TypeNames | minioc/src/main/java/org/yldt/ioc/ApplicationBeanManager.java:134-139 | one name per class, in order, each the class's name |
| Types.Owned | minioc/src/main/java/org/yldt/ioc/ApplicationBeanManager.java:316-327 | each dependency is paired with its owning class, order and length kept |
| Errors.Error.Root | minioc/src/main/java/org/yldt/ioc/ApplicationBeanManager.java:345-350 | stripping the unsatisfied-dependency wrappers always ends at a failure that is not itself a wrapper |
| Lifecycle.StartIfNeeded | minioc/src/main/java/org/yldt/ioc/ApplicationBeanManager.java:299-314 | an already started resource changes nothing; otherwise it becomes started, and only a LifeCycle bean gets onStart and joins the end of the started list; the invariant is kept |
| Lifecycle.OrderAppend | minioc/src/main/java/org/yldt/ioc/ApplicationBeanManager.java:299-314 | starting a resource keeps every started resource after the resources its object depends on |
| Lifecycle.StopEventsExact | minioc/src/main/java/org/yldt/ioc/ApplicationBeanManager.java:372-382 | over started resources, exactly one onShutdown per entry, for that entry's bean, in list order |
| Lifecycle.ShutdownContainer | minioc/src/main/java/org/yldt/ioc/ApplicationBeanManager.java:369-385 | the state becomes Shutdown; the trace grows by one onShutdown per started-list entry in list order (first started, first stopped); nothing else changes |
| Binding.PutAll | minioc/src/main/java/org/yldt/ioc/ApplicationBeanManager.java:148-154 | without a conflict every name maps to the new resource and old names keep their targets; otherwise the conflict is the first name bound to another resource, and the names before it are already inserted |
| Binding.Register | minioc/src/main/java/org/yldt/ioc/ApplicationBeanManager.java:141-156 | refused unless Running; otherwise the resource is added, and success holds exactly when no name was bound before; on a duplicate the error names the first such name and earlier names stay bound |
| Binding.CheckTypes | minioc/src/main/java/org/yldt/ioc/ApplicationBeanManager.java:74-88 | no error exactly when the component is assignable to the interface and every additional type; otherwise the error names the first type that fails |
| Binding.BindNames | minioc/src/main/java/org/yldt/ioc/ApplicationBeanManager.java:90-100 | a new unbuilt resource with exactly the given names; success exactly when none was bound |
| Binding.BindTyped | minioc/src/main/java/org/yldt/ioc/ApplicationBeanManager.java:65-72 | IllegalArgument exactly when a listed type does not fit, and then the state is unchanged; when every type fits, while running, one new unbuilt resource is added under the interface name then the additional type names, and the call succeeds exactly when none of those names was bound; when not running it is refused with no change |
| Binding.BindType | minioc/src/main/java/org/yldt/ioc/ApplicationBeanManager.java:57-63 | the resource is named by its `@Bean` names if there are any, otherwise by its own class name; while running one new unbuilt resource is added and the call succeeds exactly when none of those names was bound; when not running it is refused with no change; it can only fail by phase or duplicate name |
| Binding.BindObjectNames | minioc/src/main/java/org/yldt/ioc/ApplicationBeanManager.java:108-118 | a null object is refused with no change; otherwise a resource holding the object, unstarted, under exactly the given names |
| Binding.BindObject | minioc/src/main/java/org/yldt/ioc/ApplicationBeanManager.java:102-106 | a null object is refused; otherwise, while running, exactly one resource is added, holding the object, unstarted, under its runtime class's name alone, and the call succeeds exactly when that name was not bound; on success the name points at the new resource |
| Binding.BindObjectTyped | minioc/src/main/java/org/yldt/ioc/ApplicationBeanManager.java:120-125 | IllegalArgument exactly when the object's class does not fit a listed type, with no change; when every type fits, while running, one unstarted resource holding the object is added under the interface and additional type names, and the call succeeds exactly when none of those names was bound; when not running it is refused with no change |
| Binding.New | minioc/src/main/java/org/yldt/ioc/ApplicationBeanManager.java:50-55 | Running, nothing started, and exactly one resource, holding the container itself under the ResourceManager name only |
| Lookup.BeginConstruction | minioc/src/main/java/org/yldt/ioc/ApplicationBeanManager.java:225 | the resource is under construction without an object, and one fewer resource can start a construction |
| Lookup.Install | minioc/src/main/java/org/yldt/ioc/ApplicationBeanManager.java:232-233 | the resource holds the new object and is no longer under construction; no other resource changes; what was injected is recorded |
| Lookup.GetBean | minioc/src/main/java/org/yldt/ioc/ApplicationBeanManager.java:172-202 | refused after shutdown; unbound name fails with no change; a built resource returns its stored object exactly when the object's runtime class fits, and a type failure changes nothing; a success is bound to the name, started and of the requested type; every failure is a ResourceException; the state only evolves |
| Lookup.GetBeanOfType | minioc/src/main/java/org/yldt/ioc/ApplicationBeanManager.java:158-160 | a success is bound under the class's own name and is an instance of that class; refused after shutdown; fails with no change when the class name is not bound |
| Lookup.Construct | minioc/src/main/java/org/yldt/ioc/ApplicationBeanManager.java:204-237 | the type check comes first, then the cycle check, and both fail with no change; a later failure leaves the resource under construction without an object; a success is a new object of the resource's class, bound, started and with its injections recorded |
| Lookup.Build | minioc/src/main/java/org/yldt/ioc/ApplicationBeanManager.java:456-464 | not exactly one public constructor fails at once with that count; failures leave the resource poisoned; a success is a new object of the resource's class |
| Lookup.Instantiate | minioc/src/main/java/org/yldt/ioc/ApplicationBeanManager.java:400-428 | a throwing constructor fails with its own exception as the cause and no change; otherwise the object gets the next identity and only injection can fail, as an unsatisfied dependency |
| Lookup.Inject | minioc/src/main/java/org/yldt/ioc/ApplicationBeanManager.java:226-235 | fields then methods are resolved; a failure is an unsatisfied dependency with the resource still under construction; a success returns the same object, bound and started |
| Lookup.Finish | minioc/src/main/java/org/yldt/ioc/ApplicationBeanManager.java:232-235 | the object is stored and started, and what was injected into it is recorded |
| Lookup.Resolve | minioc/src/main/java/org/yldt/ioc/ApplicationBeanManager.java:329-352 | a success is the started bean bound under the dependency's name and of its declared type; any failure is one unsatisfied-dependency wrapper naming the owning class and the declared type |
| Lookup.ResolveAll | minioc/src/main/java/org/yldt/ioc/ApplicationBeanManager.java:316-327 | a success supplies one bean per dependency, each as Resolve promises; a failure is an unsatisfied dependency |
| Wiring.ReadyResolves | minioc/src/main/java/org/yldt/ioc/ApplicationBeanManager.java:316-327 | resolving dependencies that are each served by a bean already built, of a fitting class, succeeds and builds no new object |
| Wiring.ResolvedBuilds | minioc/src/main/java/org/yldt/ioc/ApplicationBeanManager.java:225-233 | a resource under construction whose constructor arguments resolve, whose one public constructor returns and whose injection points are served by built beans is built, as a new object of its class numbered by the identity reached after the arguments |
| Wiring.DepsBuild | minioc/src/main/java/org/yldt/ioc/ApplicationBeanManager.java:204-237 | an unbuilt resource whose class fits the requested type, has one public constructor that returns, and whose every constructor argument, field and method dependency is served by a built bean of a fitting class, is built on its first lookup as a new object of its class with the next identity |
| Wiring.ResolveAllFailure | minioc/src/main/java/org/yldt/ioc/ApplicationBeanManager.java:316-327 | resolving a list of dependencies fails exactly when, for some position, every dependency before it resolved one after the other and the lookup of that one then failed; the failure is that lookup's error wrapped once, naming that dependency's owning class, in the state that lookup left |
| Listing.Collect | minioc/src/main/java/org/yldt/ioc/ApplicationBeanManager.java:357-361 | a success leaves every listed name built and started and returns exactly their beans; after shutdown or on an unbound first name it fails with no change |
| Listing.ListBeans | minioc/src/main/java/org/yldt/ioc/ApplicationBeanManager.java:354-363 | a success leaves every bound name built and started and returns exactly the set of beans stored under some name |
| Listing.StartAll | minioc/src/main/java/org/yldt/ioc/ApplicationBeanManager.java:365-367 | a success leaves every bound name built and started; after shutdown it fails with no change |
| Listing.CollectStable | minioc/src/main/java/org/yldt/ioc/ResourceManager.java:191-200 | listing names that are all built and started returns their beans and changes nothing |
| Listing.StartAllTwice | minioc/src/main/java/org/yldt/ioc/ResourceManager.java:202-210 | a second startAll after a successful one changes nothing: no bean is built or started again |
| Properties.NewServesItself | minioc/src/test/java/org/yldt/ioc/ApplicationBeanManagerTest.java:35-39 | a new container returns itself for the ResourceManager name |
| Properties.LookupAgain | minioc/src/main/java/org/yldt/ioc/ApplicationBeanManager.java:188-198 | after a successful lookup, the same lookup returns the same object and changes nothing, so no second construction and no second onStart |
| Properties.AliasSameBean | minioc/src/main/java/org/yldt/ioc/ResourceManager.java:56-57 | through any other name bound to the same resource, a lookup returns that same object, or a type error if the requested type does not fit |
| Properties.InjectedIsLookup | minioc/src/test/java/org/yldt/ioc/ApplicationBeanManagerTest.java:131-142 | every object injected into a built bean is exactly what looking up its dependency returns, and that lookup changes nothing |
| Properties.FailedConstructionPoisons | minioc/src/main/java/org/yldt/ioc/ApplicationBeanManager.java:225-233 | a construction that passes the type and cycle checks and then fails leaves its resource under construction without an object |
| Properties.PoisonedFailsForever | minioc/src/main/java/org/yldt/ioc/ApplicationBeanManager.java:206-219 | after any later binds and lookups (the state only `Grows`), every lookup of a poisoned resource fails with a cycle or type error and changes nothing |
| Properties.LookupNeverUnbuilds | minioc/src/main/java/org/yldt/ioc/ApplicationBeanManager.java:172-237 | a lookup never increases the number of resources that could still start a construction |
| Properties.StartOnce | minioc/src/main/java/org/yldt/ioc/ResourceManager.java:31-33 | while running, every hook call is an onStart of a LifeCycle bean, and no resource gets onStart twice |
| Properties.DependencyStartsFirst | minioc/src/main/java/org/yldt/ioc/ApplicationBeanManager.java:226-235 | a LifeCycle dependency of a built bean got onStart before that bean did |
| Properties.ShutdownTwice | minioc/src/main/java/org/yldt/ioc/ApplicationBeanManager.java:369-385 | a second shutdown appends the same onShutdown calls again, in the same order |
| Properties.ShutdownRefuses | minioc/src/main/java/org/yldt/ioc/ResourceManager.java:212-218 | after shutdown every lookup and every registration is refused and changes nothing |
| Properties.ResolveWrapsOnce | minioc/src/main/java/org/yldt/ioc/ApplicationBeanManager.java:344-350 | each level of resolution adds exactly one wrapper around the failure below it and keeps its root cause |
| Properties.LeafBuilds | minioc/src/main/java/org/yldt/ioc/ApplicationBeanManager.java:204-237 | an unbuilt resource whose class has one public constructor, no dependencies and a constructor that returns is built on its first lookup, as a new object of that class |
| Properties.ThrowingBuild | minioc/src/main/java/org/yldt/ioc/ApplicationBeanManager.java:424-426 | building a resource whose lone no-argument constructor throws fails with that exception and changes nothing further |
| Properties.ThrowPropagates | minioc/src/main/java/org/yldt/ioc/ApplicationBeanManager.java:329-352 | when a class's only constructor argument is a resource whose constructor throws, the lookup fails with that exception wrapped once, naming the class and the argument's type, and both resources are left poisoned |
| Sessions.Apply | minioc/src/main/java/org/yldt/ioc/ResourceManager.java:41-218 | one public call, binds, lookups, `listBeans` and `startAll` included, keeps the invariant, never unbinds a name, replaces an object, unstarts a bean or finishes a stuck construction, only extends the trace and started list, and after shutdown changes nothing except that shutdown itself adds hook calls; after shutdown every call but shutdown fails, except a listing that iterates no names |
| Sessions.Sweep | minioc/src/main/java/org/yldt/ioc/ApplicationBeanManager.java:354-367 | the loop of `listBeans` and `startAll` over names in any iteration order: on success every name is bound to a built, started bean; the state only evolves; after shutdown it changes nothing and fails exactly when there is a name to look up |
| Sessions.PoisonedForever | minioc/src/main/java/org/yldt/ioc/ApplicationBeanManager.java:225-233 | a resource whose construction failed stays stuck for the rest of any session, binds and listings included: while running, every lookup of it fails with a cycle or type error |
| Sessions.Run | minioc/src/main/java/org/yldt/ioc/ResourceManager.java:183-189 | over any sequence of calls the same holds; once Shutdown, the container stays Shutdown with its resources, names and started list frozen |
| Sessions.ShutdownIsFinal | minioc/src/main/java/org/yldt/ioc/ResourceManager.java:212-218 | after shutdown, every later bind, lookup or listing in any session fails, except a listing that iterates no names |
| Sessions.StopLawful | minioc/src/main/java/org/yldt/ioc/ApplicationBeanManager.java:369-385 | each onShutdown that shutdown adds goes to a bean that received onStart earlier, and adds no onStart |
| Sessions.RunLawful | minioc/src/main/java/org/yldt/ioc/ResourceManager.java:31-33 | over any session the hook history stays lawful: started beans' onStart calls are recorded in order, none twice, and every onShutdown follows an onStart of the same bean |
| Sessions.ManagerAlwaysBound | minioc/src/main/java/org/yldt/ioc/ApplicationBeanManager.java:50-55 | from a new container, whatever calls follow, the ResourceManager name stays bound to the first resource, which holds the container itself, so the name map is never empty |
| Sessions.HookHistory | minioc/src/main/java/org/yldt/ioc/ResourceManager.java:212-214 | from a new container, whatever calls follow, shutdown included and repeated, no resource gets onStart twice and only started beans get onShutdown |
| Sessions.BeanNeverReplaced | minioc/src/main/java/org/yldt/ioc/ApplicationBeanManager.java:186-198 | a bean stored and started under a name stays there, the same object, for the rest of any session |
| Scenarios.Added | minioc/src/main/java/org/yldt/ioc/ApplicationBeanManager.java:57-63 | binding a class whose name is unbound to a running container without `@Bean` names adds one new unbuilt resource under the class name at the next index, and keeps every other resource and name |
| Injection.SimpleBuilds | minioc/src/main/java/org/yldt/ioc/ApplicationBeanManager.java:204-237 | while the container holds itself under the ResourceManager name, an unbuilt SimpleClass resource is built on its first lookup as a new object |
| Injection.SimpleInjected | minioc/src/test/java/org/yldt/ioc/ApplicationBeanManagerTest.java:42-49 | after `bind(SimpleClass.class)`, `getBean(SimpleClass.class)` builds a new SimpleClass, a second lookup returns the same object and changes nothing, and the ResourceManager injected into it is the container itself |
| Injection.ComplexBuilds | minioc/src/main/java/org/yldt/ioc/ApplicationBeanManager.java:204-237 | with both classes bound and unbuilt, looking up MoreComplicatedClass succeeds, building the SimpleClass its constructor needs |
| Injection.ComplexInjected | minioc/src/test/java/org/yldt/ioc/ApplicationBeanManagerTest.java:52-63 | after binding SimpleClass and MoreComplicatedClass, `getBean(MoreComplicatedClass.class)` returns a MoreComplicatedClass, a second lookup returns the same object and changes nothing, it was given one SimpleClass, and that object is exactly what `getBean(SimpleClass.class)` now returns, changing nothing |
| Scenarios.UWorld | minioc/src/test/java/org/yldt/ioc/ApplicationBeanManagerTest.java:81-129 | the concrete class universe of the scenarios satisfies the container's assumptions about classes and agrees with `World` |
| Scenarios.ApiTypes | minioc/src/test/java/org/yldt/ioc/ApplicationBeanManagerTest.java:81-111 | ApiTestBean is assignable to itself, Runnable and Callable, but not to List or ApplicationBeanManager |
| Scenarios.ApiBinds | minioc/src/test/java/org/yldt/ioc/ApplicationBeanManagerTest.java:90-92 | `bind(ApiTestBean, Runnable, Callable)` on a new container succeeds |
| Scenarios.ApiRefused | minioc/src/test/java/org/yldt/ioc/ApplicationBeanManagerTest.java:94-110 | `bind(ApiTestBean, Runnable, List)` and `bind(ApiTestBean, List)` are refused with IllegalArgumentException and leave the new container as it was |
| Scenarios.ApiBound | minioc/src/test/java/org/yldt/ioc/ApplicationBeanManagerTest.java:116-118 | after `bind(ApiTestBean, ApiTestBean, Runnable)` the container is running, the class name is bound to the second resource, and that resource is a new unbuilt ApiTestBean registered under the class name and Runnable's name |
| Scenarios.ApiBuilt | minioc/src/test/java/org/yldt/ioc/ApplicationBeanManagerTest.java:118-119 | looking that name up as Runnable builds a new ApiTestBean |
| Scenarios.BadBeanType | minioc/src/test/java/org/yldt/ioc/ApplicationBeanManagerTest.java:113-129 | after that, the same name looked up as ApplicationBeanManager fails with a type error and changes nothing |
| Scenarios.RefusedAs | minioc/src/main/java/org/yldt/ioc/ApplicationBeanManager.java:188-193 | a bean a lookup returned, looked up again as a type it does not have, is refused with a type error and nothing changes |
| Scenarios.CarBound | minioc/src/main/java/org/yldt/ioc/ApplicationBeanManager.java:57-63 | after `bind(Engine.class)` and `bind(Car.class)`, each class name is bound to its own new unbuilt resource |
| Scenarios.ThrowingDependency | minioc/src/main/java/org/yldt/ioc/ApplicationBeanManager.java:204-237 | `getBean(Car.class)` fails with Engine's constructor exception wrapped once as an unsatisfied dependency of Car; afterwards `getBean` of either class reports a cycle |

## Left out

- The lock, the `ConcurrentHashMap`, and the unsynchronized iteration in `listBeans`. Each operation is one atomic step, and a listing is a run of lookups with no other call in between.
- Logging. It has no effect on the container's behaviour.
- Real reflection. Accessibility flags, annotation lookup and the hierarchy walk of the injection methods are replaced by the lists in each class descriptor. Fields are listed most-derived class first, and methods the same way.
- The message text of every exception, including `detailedIllegalArgumentMessage`.
- The `IllegalArgumentException` branch of `instantiateBean`. Resolution has already checked every argument against its declared type, so that branch cannot be reached.
- `InstantiationException` and `IllegalAccessException` from `newInstance`. An abstract class or an inaccessible constructor is outside the class universe.
- Exceptions thrown by `onStart` and `onShutdown` themselves.
- A throwing `@Inject` method, and a field that cannot be set (a static final field, say), are outside the model. In the source both raise a plain `ResourceException` from `applyMethod` or `setToField` after the constructor ran, and the resource stays marked under construction. So `Lookup.Inject` and `Lookup.Instantiate` state that injection fails only as an unsatisfied dependency.
- `install(Module)`. It only calls into the module's own code, which is not part of this model.
- The `NullPointerException` that `bindObject(Object, Class, ...)` raises for a null object. The model passes it a non-null object.
- The `NullPointerException` that `ConcurrentHashMap.putIfAbsent` raises for a null bean name. The model's names are strings, never null.
- `getState`. It only reads the `state` field, which every contract mentions directly.
- Listing.ListBeans: the iteration order of the name map is a parameter. The result is the set of beans, without the list order the source happens to produce.
- Listing.Collect: on a failure past the first name, the contract does not say which lookup failed. It says only that the state evolved and the invariant holds.
- Lookup.GetBean: the contract does not list every error kind a failing construction can raise. `Construct`, `Build` and `Instantiate` state those.
- Bean constructors, `@Inject` methods and the `onStart` and `onShutdown` hooks run user code. The model treats that code as never calling back into the container. A constructor that calls `bind`, or an `onStart` that calls `shutdown`, is outside the model. The reentrant lock would let such calls through, and the invariants of a lookup, such as an unchanged name map and state, would then fail.
- Sessions.Apply: a listing's iteration order is a parameter, not tied to the name map. So the sessions also cover a listing over no names. After shutdown that listing answers instead of failing. In the container it cannot happen, because the container's own name is always bound (`Sessions.ManagerAlwaysBound`).
- Distinctness of objects across resources. The container numbers the objects it builds from a counter starting after the container itself. But `bindObject` accepts any object the caller holds, including one the container built, so two resources may hold the same object. No invariant relates the objects in resources to the counter.
- Wiring.FailsAt: the state in which the failing lookup is made is defined by resolving the dependencies before it one after another, each in the state the one before left. It is not stated as the state of a `ResolveAll` call on that prefix. The two agree by the definition of `ResolveAll`, but the model does not prove that link.
- Injection.SimpleInjected, Injection.ComplexInjected: the test classes' descriptors are assumptions (see `Injection` above), so these runs hold for those descriptors, not for the test sources themselves.

=== FILE: binding.dfy ===
/** Registration: the `bind` and `bindObject` variants, `register`, and the new container. */
module Binding {
  import opened Wrappers
  import opened Types
  import opened Errors
  import opened Resources
  import opened ManagerState

  /** `n` is already bound to a resource other than the one at index `i`. */
  predicate Conflicts(m: map<string, nat>, n: string, i: nat)
  {
    n in m && m[n] != i
  }

  /** `m'` is `m` with every name of `ns` that `m` lacks bound to `i`, and nothing else. */
  ghost predicate Extends(m: map<string, nat>, m': map<string, nat>, ns: seq<string>, i: nat)
  {
    && (forall n :: n in m' <==> n in m || n in ns)
    && (forall n :: n in m ==> m'[n] == m[n])
    && (forall n :: n in ns && n !in m ==> m'[n] == i)
  }

  /** The names map after the loop of `register`, and the position of the name that stopped it. */
  datatype Insertion = Insertion(names: map<string, nat>, conflictAt: Option<nat>)

  /**
    The `putIfAbsent` loop of `register`: names go in one by one; a name already
    bound to the same resource is accepted, one bound to another resource stops the
    loop, and the names inserted before it stay.
  */
  function PutAll(m: map<string, nat>, ns: seq<string>, i: nat): (r: Insertion)
    ensures r.conflictAt.None? ==>
              && (forall k :: 0 <= k < |ns| ==> !Conflicts(m, ns[k], i))
              && Extends(m, r.names, ns, i)
    ensures r.conflictAt.Some? ==>
              && r.conflictAt.value < |ns|
              && Conflicts(m, ns[r.conflictAt.value], i)
              && (forall q :: 0 <= q < r.conflictAt.value ==> !Conflicts(m, ns[q], i))
              && Extends(m, r.names, ns[..r.conflictAt.value], i)
    decreases |ns|
  {
    if ns == [] then Insertion(m, None)
    else if Conflicts(m, ns[0], i) then Insertion(m, Some(0))
    else
      var m' := if ns[0] in m then m else m[ns[0] := i];
      var rest := PutAll(m', ns[1..], i);
      ExtendsStep(m, m', rest.names, ns, i, if rest.conflictAt.Some? then rest.conflictAt.value + 1 else |ns|);
      match rest.conflictAt
      case None => rest
      case Some(p) => Insertion(rest.names, Some(p + 1))
  }

  /** One step of the loop: what holds after the first name carries back to the map before it. */
  lemma ExtendsStep(m: map<string, nat>, m': map<string, nat>, m'': map<string, nat>, ns: seq<string>, i: nat, p: nat)
    requires |ns| > 0 && !Conflicts(m, ns[0], i) && 1 <= p <= |ns|
    requires m' == if ns[0] in m then m else m[ns[0] := i]
    requires Extends(m', m'', ns[1..][..p - 1], i)
    ensures Extends(m, m'', ns[..p], i)
    ensures forall n :: Conflicts(m', n, i) <==> Conflicts(m, n, i)
  {
    assert ns[..p] == [ns[0]] + ns[1..][..p - 1];
  }

  /** Binding touches only the resources and the name map. */
  predicate OnlyBinds(c: Container, c': Container)
  {
    c' == c.(slots := c'.slots, names := c'.names) && c.slots <= c'.slots
  }

  /**
    `register`: refused unless running; otherwise the new resource is added and
    its names inserted, failing on the first name bound to a different resource.
  */
  function Register(u: Universe, c: Container, s: Slot): (r: Step<()>)
    requires Valid(u, c) && SlotValid(u, s) && !s.started && !s.underConstruction
    ensures Valid(u, r.c) && Keeps(c, r.c)
    ensures OnlyBinds(c, r.c)
    ensures c.state != Running ==> r == Step(c, Err(BindingNotAllowed))
    ensures c.state == Running ==>
              && r.c.slots == c.slots + [s]
              && r.c == c.(slots := r.c.slots, names := r.c.names)
              && (r.r.Ok? <==> forall k :: 0 <= k < |s.names| ==> s.names[k] !in c.names)
    ensures c.state == Running && r.r.Ok? ==> Extends(c.names, r.c.names, s.names, |c.slots|)
    ensures c.state == Running && r.r.Err? ==>
              exists p :: 0 <= p < |s.names|
                && r.r.error == DuplicateName(s.names[p], s.component)
                && s.names[p] in c.names
                && (forall q :: 0 <= q < p ==> s.names[q] !in c.names)
                && Extends(c.names, r.c.names, s.names[..p], |c.slots|)
  {
    if c.state != Running then Step(c, Err(BindingNotAllowed))
    else
      var i := |c.slots|;
      var ins := PutAll(c.names, s.names, i);
      var c' := c.(slots := c.slots + [s], names := ins.names);
      RegisterValid(u, c, s, c', ins.conflictAt);
      match ins.conflictAt
      case None => Step(c', Ok(()))
      case Some(p) => Step(c', Err(DuplicateName(s.names[p], s.component)))
  }

  lemma RegisterValid(u: Universe, c: Container, s: Slot, c': Container, at: Option<nat>)
    requires Valid(u, c) && SlotValid(u, s) && !s.started && !s.underConstruction
    requires c' == c.(slots := c.slots + [s], names := c'.names)
    requires at.None? ==> Extends(c.names, c'.names, s.names, |c.slots|)
    requires at.Some? ==> at.value <= |s.names| && Extends(c.names, c'.names, s.names[..at.value], |c.slots|)
    ensures Valid(u, c') && Keeps(c, c')
  {
    forall j | 0 <= j < |c'.slots|
      ensures SlotValid(u, c'.slots[j])
      ensures j in c'.startedOrder <==> StartedLifeCycle(u, c'.slots[j])
    {
      if j < |c.slots| {
        assert SlotValid(u, c.slots[j]);
        assert j in c.startedOrder <==> StartedLifeCycle(u, c.slots[j]);
      } else {
        assert c.startedOrder == c'.startedOrder;
        assert j !in c.startedOrder;
      }
    }
    forall n | n in c'.names
      ensures c'.names[n] < |c'.slots|
    {
    }
    if c.state == Running {
      forall k | 0 <= k < |c'.trace|
        ensures c'.startedOrder[k] < |c'.slots| && c'.slots[c'.startedOrder[k]].obj == Some(c'.trace[k].bean)
      {
        assert c.slots[c.startedOrder[k]].obj == Some(c.trace[k].bean);
      }
    }
    assert Keeps(c, c');
    WiringKept(u, c, c');
    OrderKept(u, c, c');
  }

  /** `assertValidTypes`: the first listed type the component is not assignable to, if any. */
  function CheckTypes(u: Universe, t: TypeId, iface: TypeId, extra: seq<TypeId>): (e: Option<Error>)
    requires t < |u.types|
    ensures e.None? <==> Assignable(u, t, iface) && forall k :: 0 <= k < |extra| ==> Assignable(u, t, extra[k])
    ensures e.Some? ==> e.value.IllegalArgument? && e.value.component == t
    ensures e.Some? && Assignable(u, t, iface) ==> e.value.required in extra
    ensures !Assignable(u, t, iface) ==> e == Some(IllegalArgument(t, iface))
    decreases |extra|
  {
    if !Assignable(u, t, iface) then Some(IllegalArgument(t, iface))
    else if extra == [] then None
    else
      var rest := CheckTypes(u, t, extra[0], extra[1..]);
      assert forall k :: 1 <= k < |extra| ==> extra[k] == extra[1..][k - 1];
      rest
  }

  /** Class `t` is assignable to the interface type and to every additional type. */
  predicate Fits(u: Universe, t: TypeId, iface: TypeId, extra: seq<TypeId>)
    requires t < |u.types|
  {
    Assignable(u, t, iface) && forall k :: 0 <= k < |extra| ==> Assignable(u, t, extra[k])
  }

  /** No name of `ns` is bound in `m`. */
  predicate Unbound(m: map<string, nat>, ns: seq<string>)
  {
    forall k :: 0 <= k < |ns| ==> ns[k] !in m
  }

  /** `bind(Class, String, String...)` and the private `bind(Class, String[])`. */
  function BindNames(u: Universe, c: Container, t: TypeId, names: seq<string>): (r: Step<()>)
    requires Valid(u, c) && t < |u.types|
    ensures Valid(u, r.c) && Keeps(c, r.c)
    ensures OnlyBinds(c, r.c)
    ensures c.state == Running ==>
              && r.c.slots == c.slots + [NewSlot(t, names)]
              && (r.r.Ok? <==> forall k :: 0 <= k < |names| ==> names[k] !in c.names)
    ensures c.state == Running && r.r.Ok? ==> Extends(c.names, r.c.names, names, |c.slots|)
    ensures c.state != Running ==> r == Step(c, Err(BindingNotAllowed))
  {
    Register(u, c, NewSlot(t, names))
  }

  /**
    `bind(Class, Class, Class...)`: the component must be assignable to the interface
    type and to every additional type, or nothing is registered; the bean is then
    known by the interface name and the additional type names, not by its own name.
  */
  function BindTyped(u: Universe, c: Container, t: TypeId, iface: TypeId, extra: seq<TypeId>): (r: Step<()>)
    requires Valid(u, c) && t < |u.types| && iface < |u.types|
    requires forall k :: 0 <= k < |extra| ==> extra[k] < |u.types|
    ensures Valid(u, r.c) && Keeps(c, r.c)
    ensures OnlyBinds(c, r.c)
    ensures r.r.Err? && r.r.error.IllegalArgument? ==> r.c == c
    ensures (r.r.Err? && r.r.error.IllegalArgument?) <==>
              !(Assignable(u, t, iface) && forall k :: 0 <= k < |extra| ==> Assignable(u, t, extra[k]))
    ensures c.state == Running && Fits(u, t, iface, extra) ==>
              var ns := [u.types[iface].name] + TypeNames(u, extra);
              && r.c.slots == c.slots + [NewSlot(t, ns)]
              && (r.r.Ok? <==> Unbound(c.names, ns))
    ensures c.state != Running && Fits(u, t, iface, extra) ==> r == Step(c, Err(BindingNotAllowed))
    ensures r.r.Ok? ==>
              && r.c.slots == c.slots + [NewSlot(t, [u.types[iface].name] + TypeNames(u, extra))]
              && Extends(c.names, r.c.names, [u.types[iface].name] + TypeNames(u, extra), |c.slots|)
  {
    match CheckTypes(u, t, iface, extra)
    case Some(e) => Step(c, Err(e))
    case None => BindNames(u, c, t, [u.types[iface].name] + TypeNames(u, extra))
  }

  /** `bind(Class)`: the `@Bean` names when there are any, otherwise the class's own name. */
  function BindType(u: Universe, c: Container, t: TypeId): (r: Step<()>)
    requires Valid(u, c) && t < |u.types|
    ensures Valid(u, r.c) && Keeps(c, r.c)
    ensures OnlyBinds(c, r.c)
    ensures r.r.Err? ==> r.r.error.BindingNotAllowed? || r.r.error.DuplicateName?
    ensures c.state == Running ==>
              var ns := if |u.types[t].beanNames| > 0 then u.types[t].beanNames else [u.types[t].name];
              && r.c.slots == c.slots + [NewSlot(t, ns)]
              && (r.r.Ok? <==> Unbound(c.names, ns))
    ensures c.state != Running ==> r == Step(c, Err(BindingNotAllowed))
    ensures r.r.Ok? ==>
              Extends(c.names, r.c.names, if |u.types[t].beanNames| > 0 then u.types[t].beanNames else [u.types[t].name], |c.slots|)
  {
    var d := u.types[t];
    assert TypeValid(u, t);
    assert [d.name] + TypeNames(u, []) == [d.name];
    if |d.beanNames| > 0 then BindNames(u, c, t, d.beanNames)
    else BindTyped(u, c, t, t, [])
  }

  /** `bindObject(Object, String, String...)`: a resource whose object is already there. */
  function BindObjectNames(u: Universe, c: Container, component: Option<Obj>, names: seq<string>): (r: Step<()>)
    requires Valid(u, c) && (component.Some? ==> component.value.rtype < |u.types|)
    ensures Valid(u, r.c) && Keeps(c, r.c)
    ensures OnlyBinds(c, r.c)
    ensures component.None? ==> r == Step(c, Err(NullComponent))
    ensures component.Some? && c.state == Running ==>
              && r.c.slots == c.slots + [Slot(component.value.rtype, names, component, false, false)]
              && (r.r.Ok? <==> forall k :: 0 <= k < |names| ==> names[k] !in c.names)
    ensures component.Some? && c.state != Running ==> r == Step(c, Err(BindingNotAllowed))
    ensures component.Some? && r.r.Ok? ==> Extends(c.names, r.c.names, names, |c.slots|)
  {
    match component
    case None => Step(c, Err(NullComponent))
    case Some(o) => Register(u, c, SetObject(NewSlot(o.rtype, names), o))
  }

  /** `bindObject(Object)`: bound under the name of its runtime class. */
  function BindObject(u: Universe, c: Container, component: Option<Obj>): (r: Step<()>)
    requires Valid(u, c) && (component.Some? ==> component.value.rtype < |u.types|)
    ensures Valid(u, r.c) && Keeps(c, r.c)
    ensures OnlyBinds(c, r.c)
    ensures component.None? ==> r == Step(c, Err(NullComponent))
    ensures component.Some? && c.state == Running ==>
              var o := component.value;
              && r.c.slots == c.slots + [Slot(o.rtype, [u.types[o.rtype].name], component, false, false)]
              && (r.r.Ok? <==> u.types[o.rtype].name !in c.names)
    ensures component.Some? && c.state != Running ==> r == Step(c, Err(BindingNotAllowed))
    ensures component.Some? && r.r.Ok? ==>
              Extends(c.names, r.c.names, [u.types[component.value.rtype].name], |c.slots|)
  {
    match component
    case None => Step(c, Err(NullComponent))
    case Some(o) => BindObjectNames(u, c, component, [u.types[o.rtype].name])
  }

  /** `bindObject(Object, Class, Class...)`: as `BindTyped`, checked against the object's class. */
  function BindObjectTyped(u: Universe, c: Container, component: Obj, iface: TypeId, extra: seq<TypeId>): (r: Step<()>)
    requires Valid(u, c) && component.rtype < |u.types| && iface < |u.types|
    requires forall k :: 0 <= k < |extra| ==> extra[k] < |u.types|
    ensures Valid(u, r.c) && Keeps(c, r.c)
    ensures OnlyBinds(c, r.c)
    ensures r.r.Err? && r.r.error.IllegalArgument? ==> r.c == c
    ensures (r.r.Err? && r.r.error.IllegalArgument?) <==>
              !(Assignable(u, component.rtype, iface) && forall k :: 0 <= k < |extra| ==> Assignable(u, component.rtype, extra[k]))
    ensures c.state == Running && Fits(u, component.rtype, iface, extra) ==>
              var ns := [u.types[iface].name] + TypeNames(u, extra);
              && r.c.slots == c.slots + [Slot(component.rtype, ns, Some(component), false, false)]
              && (r.r.Ok? <==> Unbound(c.names, ns))
    ensures c.state != Running && Fits(u, component.rtype, iface, extra) ==> r == Step(c, Err(BindingNotAllowed))
    ensures r.r.Ok? ==>
              && r.c.slots == c.slots + [Slot(component.rtype, [u.types[iface].name] + TypeNames(u, extra), Some(component), false, false)]
              && Extends(c.names, r.c.names, [u.types[iface].name] + TypeNames(u, extra), |c.slots|)
  {
    match CheckTypes(u, component.rtype, iface, extra)
    case Some(e) => Step(c, Err(e))
    case None => BindObjectNames(u, c, Some(component), [u.types[iface].name] + TypeNames(u, extra))
  }

  /** The container as an object: an instance of ApplicationBeanManager. */
  function Self(u: Universe): Obj
  {
    External(0, u.managerClass)
  }

  /**
    `new ApplicationBeanManager()`: running, nothing started, and exactly one
    resource, holding the container itself under the ResourceManager name.
  */
  function New(u: Universe): (c: Container)
    requires ValidUniverse(u)
    ensures Valid(u, c)
    ensures c.state == Running && c.startedOrder == [] && c.trace == []
    ensures c.slots == [Slot(u.managerClass, [u.types[u.managerInterface].name], Some(Self(u)), false, false)]
    ensures c.names == map[u.types[u.managerInterface].name := 0]
  {
    var empty := Container(map[], [], [], Running, [], 1, map[]);
    var r := BindObjectTyped(u, empty, Self(u), u.managerInterface, []);
    assert [u.types[u.managerInterface].name] + TypeNames(u, []) == [u.types[u.managerInterface].name];
    assert r.r.Ok?;
    assert r.c.names.Keys == {u.types[u.managerInterface].name};
    r.c
  }
}

=== FILE: errors.dfy ===
/**
  The exceptions the container raises. `IllegalArgument` is Java's
  IllegalArgumentException; every other constructor is a ResourceException,
  and `Unsatisfied` is its UnsatisfiedDependencyException subclass, which keeps
  the failure it wraps as its cause.
*/
module Errors {
  import opened Types

  datatype Error =
    | IllegalArgument(component: TypeId, required: TypeId)   // component is not assignable to a listed type
    | NullComponent                                          // bindObject(null)
    | BindingNotAllowed                                      // bind after shutdown
    | LookupNotAllowed                                       // getBean after shutdown
    | DuplicateName(name: string, component: TypeId)         // name already bound to another resource
    | Unregistered(name: string)
    | WrongType(name: string, actual: TypeId, expected: TypeId)
    | Cycle(name: string)                                    // resource is under construction
    | ConstructorCount(component: TypeId, count: nat)        // not exactly one public constructor
    | ConstructorThrew(name: string, thrown: string)         // thrown is the constructor's own exception
    | Unsatisfied(declaring: TypeId, argType: TypeId, cause: Error)
  {
    /** Every kind except IllegalArgumentException extends ResourceException. */
    predicate IsResourceException() {
      !IllegalArgument?
    }

    /** The failure at the bottom of a chain of unsatisfied-dependency wrappers. */
    function Root(): (e: Error)
      ensures !e.Unsatisfied?
    {
      if Unsatisfied? then cause.Root() else this
    }

    /** How many unsatisfied-dependency wrappers sit above the root failure. */
    function Depth(): nat
    {
      if Unsatisfied? then 1 + cause.Depth() else 0
    }
  }
}

=== FILE: injection.dfy ===
/**
  Concrete runs of injection, after the container's unit tests `testSimpleInject`
  and `testSlightlyMoreComplicatedCase`. SimpleClass and MoreComplicatedClass are
  test classes that are not part of this model; their descriptors here are
  assumptions: SimpleClass has an `@Inject` field of type ResourceManager, and
  MoreComplicatedClass's one public constructor takes a SimpleClass.
*/
module Injection {
  import opened Wrappers
  import opened Types
  import opened Errors
  import opened Resources
  import opened ManagerState
  import opened Binding
  import opened Lookup
  import opened Properties
  import opened Wiring
  import Scenarios

  const Object: TypeId := 0
  const Manager: TypeId := 1
  const ManagerImpl: TypeId := 2
  const Simple: TypeId := 3
  const Complex: TypeId := 4

  const ManagerName := "org.yldt.ioc.ResourceManager"
  const SimpleName := "org.yldt.ioc.SimpleClass"
  const ComplexName := "org.yldt.ioc.MoreComplicatedClass"

  function SimpleDesc(): TypeDesc
  {
    TypeDesc(SimpleName, [], {3, 0}, 1, [], [Dependency(None, Manager)], [], false, None)
  }

  function ComplexDesc(): TypeDesc
  {
    TypeDesc(ComplexName, [], {4, 0}, 1, [Dependency(None, Simple)], [], [], false, None)
  }

  function TestClasses(): Universe
  {
    Universe(
      [ TypeDesc("java.lang.Object", [], {0}, 1, [], [], [], false, None),
        TypeDesc(ManagerName, [], {1, 0}, 0, [], [], [], false, None),
        TypeDesc("org.yldt.ioc.ApplicationBeanManager", [], {2, 1, 0}, 1, [], [], [], false, None),
        SimpleDesc(),
        ComplexDesc() ],
      Object, Manager, ManagerImpl)
  }

  /** What the runs rely on about the classes. */
  predicate World(u: Universe)
  {
    && ValidUniverse(u)
    && |u.types| == 5
    && u.objectType == Object && u.managerInterface == Manager && u.managerClass == ManagerImpl
    && u.types[Manager].name == ManagerName
    && u.types[Simple] == SimpleDesc()
    && u.types[Complex] == ComplexDesc()
  }

  lemma TestWorld()
    ensures World(TestClasses())
  {
    var u := TestClasses();
    forall t | 0 <= t < |u.types|
      ensures TypeValid(u, t)
    {
      TestTypeOk(t);
    }
  }

  lemma TestTypeOk(t: nat)
    requires t < |TestClasses().types|
    ensures TypeValid(TestClasses(), t)
  {
    if t == Simple {
      SimpleOk();
    } else if t == Complex {
      ComplexOk();
    } else {
      LibraryOk(t);
    }
  }

  lemma SimpleOk()
    ensures TypeValid(TestClasses(), Simple)
  {
    assert AllPoints(Simple, SimpleDesc()) == [Point(Simple, Dependency(None, Manager))];
  }

  lemma ComplexOk()
    ensures TypeValid(TestClasses(), Complex)
  {
    ComplexShape(TestClasses());
  }

  /** Object, ResourceManager and ApplicationBeanManager have nothing to inject. */
  lemma LibraryOk(t: nat)
    requires t < 3
    ensures TypeValid(TestClasses(), t)
  {
    var u := TestClasses();
    var d := u.types[t];
    assert AllPoints(t, d) == [];
    if t == ManagerImpl {
      forall s | s in d.supertypes
        ensures s < |u.types| && u.types[s].supertypes <= d.supertypes
      {
        assert s in {2, 1, 0};
      }
    }
  }

  /** The container after `bind(SimpleClass.class)`. */
  function SimpleBound(u: Universe): (c: Container)
    requires World(u)
    ensures Valid(u, c) && c.state == Running
    ensures ManagerName in c.names && c.names[ManagerName] == 0 && c.slots[0].obj == Some(Self(u))
    ensures SimpleName in c.names && c.names[SimpleName] == 1
    ensures |c.slots| == 2 && c.slots[1] == NewSlot(Simple, [SimpleName])
  {
    var c0 := New(u);
    assert SimpleName !in c0.names && |c0.slots| == 1;
    Scenarios.Added(u, c0, Simple);
    BindType(u, c0, Simple).c
  }

  /** The container after `bind(SimpleClass.class)` and `bind(MoreComplicatedClass.class)`. */
  function BothBound(u: Universe): (c: Container)
    requires World(u)
    ensures Valid(u, c) && c.state == Running
    ensures BothUnbuilt(u, c)
    ensures c.names[SimpleName] == 1 && c.names[ComplexName] == 2
  {
    var c1 := SimpleBound(u);
    Scenarios.Added(u, c1, Complex);
    BindType(u, c1, Complex).c
  }

  /**
    Whenever the container still holds itself under the ResourceManager name, an
    unbuilt SimpleClass resource is built on its first lookup, as a new object.
  */
  lemma SimpleBuilds(u: Universe, c: Container)
    requires World(u) && Valid(u, c) && c.state == Running
    requires ManagerName in c.names && c.names[ManagerName] < |c.slots|
    requires c.slots[c.names[ManagerName]].obj == Some(Self(u))
    requires SimpleName in c.names && IsUnbuilt(c.slots[c.names[SimpleName]])
    requires c.slots[c.names[SimpleName]].component == Simple
    ensures GetBean(u, c, SimpleName, Simple).r == Ok(Made(c.nextId, Simple))
  {
    var p := Point(Simple, Dependency(None, Manager));
    assert AllPoints(Simple, u.types[Simple]) == [p];
    assert DependencyName(u, p.dep) == ManagerName;
    assert Ready(u, c, p);
    DepsBuild(u, c, SimpleName, Simple);
  }

  /**
    `testSimpleInject`: after `bind(SimpleClass.class)`, `getBean(SimpleClass.class)`
    builds a SimpleClass, a second lookup returns the same object and changes
    nothing, and the ResourceManager injected into it is the container itself.
  */
  lemma SimpleInjected(u: Universe)
    requires World(u)
    ensures var c := SimpleBound(u);
            var r := GetBeanOfType(u, c, Simple);
            && r.r == Ok(Made(c.nextId, Simple))
            && GetBeanOfType(u, r.c, Simple) == r
            && 1 in r.c.injected && r.c.injected[1] == [Self(u)]
  {
    SimpleInjectedIn(u, SimpleBound(u));
  }

  /** The run of `testSimpleInject` from any state where SimpleClass is bound but not built. */
  lemma SimpleInjectedIn(u: Universe, c: Container)
    requires World(u) && Valid(u, c) && c.state == Running
    requires ManagerName in c.names && c.names[ManagerName] == 0 && c.slots[0].obj == Some(Self(u))
    requires SimpleName in c.names && IsUnbuilt(c.slots[c.names[SimpleName]])
    requires c.slots[c.names[SimpleName]].component == Simple
    ensures var r := GetBean(u, c, SimpleName, Simple);
            && r.r == Ok(Made(c.nextId, Simple))
            && GetBean(u, r.c, SimpleName, Simple) == r
            && c.names[SimpleName] in r.c.injected && r.c.injected[c.names[SimpleName]] == [Self(u)]
  {
    SimpleBuilds(u, c);
    LookupAgain(u, c, SimpleName, Simple);
    var r := GetBean(u, c, SimpleName, Simple);
    SelfInjected(u, c, r.c, c.names[SimpleName]);
  }

  /** A built SimpleClass was given the container itself as its ResourceManager. */
  lemma SelfInjected(u: Universe, c: Container, c': Container, i: nat)
    requires World(u) && Valid(u, c') && c'.state == Running && Evolves(c, c')
    requires ManagerName in c.names && c.names[ManagerName] == 0 && c.slots[0].obj == Some(Self(u))
    requires i < |c.slots| && c.slots[i].component == Simple && i in c'.injected
    ensures c'.injected[i] == [Self(u)]
  {
    assert SlotEvolves(c.slots[0], c'.slots[0]);
    assert SlotEvolves(c.slots[i], c'.slots[i]);
    ServesItself(u, c');
    InjectedIsLookup(u, c', i, 0);
    assert |c'.injected[i]| == |AllPoints(Simple, u.types[Simple])| == 1;
  }

  /** A container that still holds itself at resource 0 hands itself out as the ResourceManager. */
  lemma ServesItself(u: Universe, c: Container)
    requires World(u) && Valid(u, c) && c.state == Running
    requires ManagerName in c.names && c.names[ManagerName] == 0 && c.slots[0].obj == Some(Self(u))
    ensures GetBean(u, c, ManagerName, Manager).r == Ok(Self(u))
  {
  }

  /**
    `testSlightlyMoreComplicatedCase`: after binding both classes, looking up
    MoreComplicatedClass first builds the SimpleClass it needs, then itself; a
    second lookup returns the same object and changes nothing, and the SimpleClass
    injected into it is exactly what `getBean(SimpleClass.class)` now returns.
  */
  lemma ComplexInjected(u: Universe)
    requires World(u)
    ensures var c := BothBound(u);
            var r := GetBeanOfType(u, c, Complex);
            && r.r.Ok? && r.r.value.rtype == Complex
            && GetBeanOfType(u, r.c, Complex) == r
            && 2 in r.c.injected && |r.c.injected[2]| == 1
            && GetBeanOfType(u, r.c, Simple) == Step(r.c, Ok(r.c.injected[2][0]))
            && r.c.injected[2][0].rtype == Simple
  {
    ComplexInjectedIn(u, BothBound(u));
  }

  /** Both classes bound, neither built, and the container holding itself under the ResourceManager name. */
  predicate BothUnbuilt(u: Universe, c: Container)
  {
    && ManagerName in c.names && c.names[ManagerName] < |c.slots|
    && c.slots[c.names[ManagerName]].obj == Some(Self(u))
    && SimpleName in c.names && c.names[SimpleName] < |c.slots|
    && IsUnbuilt(c.slots[c.names[SimpleName]]) && c.slots[c.names[SimpleName]].component == Simple
    && ComplexName in c.names && c.names[ComplexName] < |c.slots|
    && IsUnbuilt(c.slots[c.names[ComplexName]]) && c.slots[c.names[ComplexName]].component == Complex
  }

  /** The run of `testSlightlyMoreComplicatedCase` from any state where both classes are bound but not built. */
  lemma ComplexInjectedIn(u: Universe, c: Container)
    requires World(u) && Valid(u, c) && c.state == Running && BothUnbuilt(u, c)
    ensures var r := GetBean(u, c, ComplexName, Complex);
            var i := c.names[ComplexName];
            && r.r.Ok? && r.r.value.rtype == Complex
            && GetBean(u, r.c, ComplexName, Complex) == r
            && i in r.c.injected && |r.c.injected[i]| == 1
            && GetBean(u, r.c, SimpleName, Simple) == Step(r.c, Ok(r.c.injected[i][0]))
            && r.c.injected[i][0].rtype == Simple
  {
    ComplexBuilds(u, c);
    LookupAgain(u, c, ComplexName, Complex);
    var r := GetBean(u, c, ComplexName, Complex);
    SimpleInjectedInto(u, c, r.c, c.names[ComplexName]);
  }

  /** What a built MoreComplicatedClass was given is what looking SimpleClass up returns. */
  lemma SimpleInjectedInto(u: Universe, c: Container, c': Container, i: nat)
    requires World(u) && Valid(u, c') && c'.state == Running && Evolves(c, c')
    requires i < |c.slots| && c.slots[i].component == Complex && i in c'.injected
    requires SimpleName in c.names && c.names[SimpleName] < |c.slots| && c.slots[c.names[SimpleName]].component == Simple
    ensures |c'.injected[i]| == 1
    ensures GetBean(u, c', SimpleName, Simple) == Step(c', Ok(c'.injected[i][0]))
    ensures c'.injected[i][0].rtype == Simple
  {
    assert SlotEvolves(c.slots[i], c'.slots[i]);
    var p := Point(Complex, Dependency(None, Simple));
    ComplexShape(u);
    assert DependencyName(u, p.dep) == SimpleName;
    InjectedIsLookup(u, c', i, 0);
    assert Supplies(u, c', p, c'.injected[i][0]);
    assert SlotEvolves(c.slots[c.names[SimpleName]], c'.slots[c.names[SimpleName]]);
    assert SlotValid(u, c'.slots[c'.names[SimpleName]]);
  }

  /** With both classes bound and unbuilt, looking MoreComplicatedClass up succeeds, building SimpleClass first. */
  lemma ComplexBuilds(u: Universe, c: Container)
    requires World(u) && Valid(u, c) && c.state == Running && BothUnbuilt(u, c)
    ensures GetBean(u, c, ComplexName, Complex).r.Ok?
  {
    var i := c.names[ComplexName];
    var c1 := BeginConstruction(u, c, i);
    assert c1 == c.(slots := c.slots[i := SetUnderConstruction(c.slots[i], true)]);
    SimpleBuilds(u, c1);
    ComplexArgument(u, c1);
    ComplexShape(u);
    ResolvedBuilds(u, c1, ComplexName, i);
    assert Construct(u, c, ComplexName, i, Complex) == Build(u, c1, ComplexName, i);
  }

  /** The constructor argument of MoreComplicatedClass resolves once SimpleClass can be built. */
  lemma {:induction false} ComplexArgument(u: Universe, c: Container)
    requires Valid(u, c) && |u.types| == 5 && u.types[Simple] == SimpleDesc() && u.types[Complex] == ComplexDesc()
    requires GetBean(u, c, SimpleName, Simple).r.Ok?
    ensures ResolveAll(u, c, ConstructorPoints(Complex, u.types[Complex])).r.Ok?
  {
    var p := Point(Complex, Dependency(None, Simple));
    ComplexShape(u);
    assert DependencyName(u, p.dep) == SimpleName;
    ResolveOne(u, c, p);
  }

  /** MoreComplicatedClass's one dependency is its constructor's SimpleClass; nothing is injected after. */
  lemma ComplexShape(u: Universe)
    requires |u.types| == 5 && u.types[Complex] == ComplexDesc()
    ensures ConstructorPoints(Complex, u.types[Complex]) == [Point(Complex, Dependency(None, Simple))]
    ensures InjectionPoints(Complex, u.types[Complex]) == []
    ensures AllPoints(Complex, u.types[Complex]) == [Point(Complex, Dependency(None, Simple))]
  {
    assert Owned(Complex, []) == [];
  }

  /** A single dependency whose lookup succeeds resolves. */
  lemma {:induction false} ResolveOne(u: Universe, c: Container, p: Point)
    requires Valid(u, c) && p.dep.declared < |u.types|
    requires GetBean(u, c, DependencyName(u, p.dep), p.dep.declared).r.Ok?
    ensures ResolveAll(u, c, [p]).r.Ok?
  {
    var g := GetBean(u, c, DependencyName(u, p.dep), p.dep.declared);
    var h := Resolve(u, c, p);
    assert h == g;
    assert [p][0] == p && [p][1..] == [];
  }
}

=== FILE: lifecycle.dfy ===
/** Starting a resource on first retrieval, and shutting the container down. */
module Lifecycle {
  import opened Wrappers
  import opened Types
  import opened Resources
  import opened ManagerState

  /**
    `startResouceIfNeeded`: the first time a resource with an object is handed
    out, a LifeCycle bean gets onStart and joins the started list; every bean is
    then marked started, so a later retrieval does nothing.
  */
  function StartIfNeeded(u: Universe, c: Container, i: nat): (c': Container)
    requires Valid(u, c) && i < |c.slots| && c.slots[i].obj.Some?
    ensures Valid(u, c') && Evolves(c, c')
    ensures c'.slots[i].started
    ensures forall j :: 0 <= j < |c.slots| && j != i ==> c'.slots[j] == c.slots[j]
    ensures c'.slots[i].obj == c.slots[i].obj && c'.slots[i].underConstruction == c.slots[i].underConstruction
    ensures c.slots[i].started ==> c' == c
    ensures !c.slots[i].started && LifeCycleBean(u, c.slots[i].obj.value) ==>
              && c'.startedOrder == c.startedOrder + [i]
              && c'.trace == c.trace + [OnStart(i, c.slots[i].obj.value)]
    ensures !(!c.slots[i].started && LifeCycleBean(u, c.slots[i].obj.value)) ==>
              c'.startedOrder == c.startedOrder && c'.trace == c.trace
    ensures c'.names == c.names && c'.injected == c.injected && c'.nextId == c.nextId
  {
    var s := c.slots[i];
    if s.started then c
    else
      var bean := s.obj.value;
      var c' := if LifeCycleBean(u, bean) then
        c.(slots := c.slots[i := MarkStarted(s)],
           startedOrder := c.startedOrder + [i],
           trace := c.trace + [OnStart(i, bean)])
      else
        c.(slots := c.slots[i := MarkStarted(s)]);
      MarkStartedValid(u, c, i, c');
      c'
  }

  lemma MarkStartedValid(u: Universe, c: Container, i: nat, c': Container)
    requires Valid(u, c) && i < |c.slots| && c.slots[i].obj.Some? && !c.slots[i].started
    requires c'.slots == c.slots[i := MarkStarted(c.slots[i])]
    requires c'.names == c.names && c'.state == c.state && c'.injected == c.injected && c'.nextId == c.nextId
    requires LifeCycleBean(u, c.slots[i].obj.value) ==>
               c'.startedOrder == c.startedOrder + [i] && c'.trace == c.trace + [OnStart(i, c.slots[i].obj.value)]
    requires !LifeCycleBean(u, c.slots[i].obj.value) ==>
               c'.startedOrder == c.startedOrder && c'.trace == c.trace
    ensures Valid(u, c') && Evolves(c, c')
  {
    assert i !in c.startedOrder;
    forall j | 0 <= j < |c'.slots|
      ensures SlotValid(u, c'.slots[j])
      ensures j in c'.startedOrder <==> StartedLifeCycle(u, c'.slots[j])
    {
      assert SlotValid(u, c.slots[j]);
      assert j in c.startedOrder <==> StartedLifeCycle(u, c.slots[j]);
    }
    forall p, q | 0 <= p < q < |c'.startedOrder|
      ensures c'.startedOrder[p] != c'.startedOrder[q]
    {
      if q == |c.startedOrder| {
        assert c'.startedOrder[p] == c.startedOrder[p];
      }
    }
    if c.state == Running {
      forall k | 0 <= k < |c'.trace|
        ensures c'.trace[k].OnStart? && c'.trace[k].slot == c'.startedOrder[k]
        ensures c'.startedOrder[k] < |c'.slots| && c'.slots[c'.startedOrder[k]].obj == Some(c'.trace[k].bean)
      {
        if k < |c.trace| {
          assert c.slots[c.startedOrder[k]].obj == Some(c.trace[k].bean);
        }
      }
    }
    assert Keeps(c, c');
    WiringKept(u, c, c');
    OrderAppend(u, c, i, c');
    forall j | 0 <= j < |c.slots|
      ensures SlotEvolves(c.slots[j], c'.slots[j])
    {
    }
  }

  /**
    Starting resource `i` keeps the ordering: no started object depends on a
    resource that was not yet started, and `i` goes last.
  */
  lemma OrderAppend(u: Universe, c: Container, i: nat, c': Container)
    requires Valid(u, c) && i < |c.slots| && !c.slots[i].started
    requires c'.slots == c.slots[i := MarkStarted(c.slots[i])]
    requires c'.names == c.names && c'.injected == c.injected
    requires c'.startedOrder == c.startedOrder || c'.startedOrder == c.startedOrder + [i]
    ensures StartsAfterDeps(u, c')
  {
    var n := |c.startedOrder|;
    forall p, q | 0 <= p < |c'.startedOrder| && 0 <= q < |c'.startedOrder| &&
      DependsOn(u, c', c'.startedOrder[p], c'.startedOrder[q])
      ensures q < p
    {
      var a, b := c'.startedOrder[p], c'.startedOrder[q];
      assert DependsOn(u, c, a, b) by {
        assert c'.slots[a].component == c.slots[a].component;
        var ps := AllPoints(c.slots[a].component, u.types[c.slots[a].component]);
        var pt :| pt in ps && Resolves(u, c', pt, b);
        assert Resolves(u, c, pt, b);
      }
      DependsOnStarted(u, c, a, b);
      if p < n && q < n {
        assert c'.startedOrder[p] == c.startedOrder[p] && c'.startedOrder[q] == c.startedOrder[q];
      }
    }
  }

  /** The onShutdown calls for the resources of `order`, one per LifeCycle bean, in list order. */
  function StopEvents(u: Universe, c: Container, order: seq<nat>): seq<Event>
    requires forall k :: 0 <= k < |order| ==> order[k] < |c.slots|
  {
    if order == [] then []
    else
      var s := c.slots[order[0]];
      (if s.obj.Some? && LifeCycleBean(u, s.obj.value) then [OnShutdown(order[0], s.obj.value)] else [])
        + StopEvents(u, c, order[1..])
  }

  /** Under the invariant every started resource is a LifeCycle bean, so each gets exactly one call. */
  lemma {:induction false} StopEventsExact(u: Universe, c: Container, order: seq<nat>)
    requires Valid(u, c)
    requires forall k :: 0 <= k < |order| ==> order[k] in c.startedOrder
    ensures |StopEvents(u, c, order)| == |order|
    ensures forall k :: 0 <= k < |order| ==>
              && c.slots[order[k]].obj.Some?
              && StopEvents(u, c, order)[k] == OnShutdown(order[k], c.slots[order[k]].obj.value)
  {
    if order != [] {
      assert order[0] in c.startedOrder;
      assert StartedLifeCycle(u, c.slots[order[0]]);
      forall k | 0 <= k < |order[1..]|
        ensures order[1..][k] in c.startedOrder
      {
        assert order[1..][k] == order[k + 1];
      }
      StopEventsExact(u, c, order[1..]);
    }
  }

  /**
    `shutdown`: onShutdown on every started LifeCycle bean, first started first,
    then the Shutdown state. There is no state guard: a second call repeats the hooks.
  */
  function ShutdownContainer(u: Universe, c: Container): (c': Container)
    requires Valid(u, c)
    ensures Valid(u, c') && c'.state == Shutdown
    ensures |c'.trace| == |c.trace| + |c.startedOrder|
    ensures c'.trace[..|c.trace|] == c.trace
    ensures forall k :: 0 <= k < |c.startedOrder| ==>
              c'.trace[|c.trace| + k] == OnShutdown(c.startedOrder[k], c.slots[c.startedOrder[k]].obj.value)
    ensures c' == c.(trace := c'.trace, state := Shutdown)
  {
    StopEventsExact(u, c, c.startedOrder);
    var c' := c.(trace := c.trace + StopEvents(u, c, c.startedOrder), state := Shutdown);
    StoppedValid(u, c, c');
    c'
  }

  lemma StoppedValid(u: Universe, c: Container, c': Container)
    requires Valid(u, c) && c' == c.(trace := c'.trace, state := Shutdown)
    ensures Valid(u, c')
  {
    assert WiringValid(u, c');
  }
}

=== FILE: listing.dfy ===
/**
  `listBeans` and `startAll`: every bound name is looked up with `Object` as the
  expected type, which builds and starts every resource still unbuilt. The result
  is the identity set of the beans obtained. The iteration order of the name map
  is not specified by the source, so it is a parameter here.
*/
module Listing {
  import opened Wrappers
  import opened Types
  import opened Errors
  import opened Resources
  import opened ManagerState
  import opened Lifecycle
  import opened Lookup

  /** The bean currently stored under `name`, if the name is bound and its resource built. */
  function Bean(c: Container, name: string): Option<Obj>
  {
    if name in c.names && c.names[name] < |c.slots| then c.slots[c.names[name]].obj else None
  }

  /** The name is bound to a resource whose bean exists and has been started. */
  predicate Started(c: Container, name: string)
  {
    Bean(c, name).Some? && Holds(c, name, Bean(c, name).value)
  }

  /** The beans stored under the names in `ns`. */
  function Beans(c: Container, ns: seq<string>): set<Obj>
  {
    set n | n in ns && Bean(c, n).Some? :: Bean(c, n).value
  }

  lemma HoldsEvolves(c: Container, c': Container, name: string, o: Obj)
    requires Evolves(c, c') && Holds(c, name, o)
    ensures Holds(c', name, o)
  {
    assert SlotEvolves(c.slots[c.names[name]], c'.slots[c.names[name]]);
  }

  /**
    The loop of `listBeans` over the names `ns`, in that order; the first lookup
    that fails ends the loop with its exception.
  */
  function Collect(u: Universe, c: Container, ns: seq<string>): (r: Step<set<Obj>>)
    requires Valid(u, c)
    ensures Valid(u, r.c) && Evolves(c, r.c)
    ensures r.r.Ok? ==> (forall n :: n in ns ==> Started(r.c, n)) && r.r.value == Beans(r.c, ns)
    ensures c.state == Running && |ns| > 0 && ns[0] !in c.names ==> r == Step(c, Err(Unregistered(ns[0])))
    ensures c.state == Shutdown && |ns| > 0 ==> r == Step(c, Err(LookupNotAllowed))
    decreases |ns|
  {
    assert TypeValid(u, u.objectType);
    if ns == [] then Step(c, Ok({}))
    else
      var g := GetBean(u, c, ns[0], u.objectType);
      if g.r.Err? then Step(g.c, Err(g.r.error))
      else
        var t := Collect(u, g.c, ns[1..]);
        EvolvesTransitive(c, g.c, t.c);
        if t.r.Err? then Step(t.c, Err(t.r.error))
        else
          CollectCons(g.c, t.c, ns, g.r.value);
          Step(t.c, Ok({g.r.value} + t.r.value))
  }

  lemma CollectCons(c: Container, c': Container, ns: seq<string>, o: Obj)
    requires Evolves(c, c') && |ns| > 0 && Holds(c, ns[0], o)
    requires forall n :: n in ns[1..] ==> Started(c', n)
    ensures forall n :: n in ns ==> Started(c', n)
    ensures {o} + Beans(c', ns[1..]) == Beans(c', ns)
  {
    HoldsEvolves(c, c', ns[0], o);
    assert Bean(c', ns[0]) == Some(o);
    forall x | x in Beans(c', ns)
      ensures x in {o} + Beans(c', ns[1..])
    {
      var n :| n in ns && Bean(c', n).Some? && Bean(c', n).value == x;
      if n != ns[0] {
        assert n in ns[1..];
      }
    }
  }

  /** `listBeans`: `keys` is the name map's key set in its iteration order. */
  function ListBeans(u: Universe, c: Container, keys: seq<string>): (r: Step<set<Obj>>)
    requires Valid(u, c) && Distinct(keys)
    requires forall n :: n in keys <==> n in c.names
    ensures Valid(u, r.c) && Evolves(c, r.c)
    ensures r.r.Ok? ==>
              && (forall n :: n in c.names ==> Started(r.c, n))
              && (forall o :: o in r.r.value <==> exists n :: n in c.names && Bean(r.c, n) == Some(o))
    ensures c.state == Shutdown && |c.names| > 0 ==> r == Step(c, Err(LookupNotAllowed))
  {
    KeysNonEmpty(c, keys);
    Collect(u, c, keys)
  }

  lemma KeysNonEmpty(c: Container, keys: seq<string>)
    requires forall n :: n in keys <==> n in c.names
    ensures |c.names| > 0 ==> |keys| > 0
  {
    if |c.names| > 0 {
      var n :| n in c.names;
      assert n in keys;
    }
  }

  /** `startAll`: the listing, for its side effect of building and starting every resource. */
  function StartAll(u: Universe, c: Container, keys: seq<string>): (r: Step<()>)
    requires Valid(u, c) && Distinct(keys)
    requires forall n :: n in keys <==> n in c.names
    ensures Valid(u, r.c) && Evolves(c, r.c)
    ensures r.r.Ok? ==> forall n :: n in c.names ==> Started(r.c, n)
    ensures c.state == Shutdown && |c.names| > 0 ==> r == Step(c, Err(LookupNotAllowed))
  {
    var l := ListBeans(u, c, keys);
    match l.r
    case Ok(_) => Step(l.c, Ok(()))
    case Err(e) => Step(l.c, Err(e))
  }

  /**
    Once every name in `ns` is built and started, the listing changes nothing:
    no object is built again and no `onStart` runs again.
  */
  lemma {:induction false} CollectStable(u: Universe, c: Container, ns: seq<string>)
    requires Valid(u, c) && c.state == Running
    requires forall n :: n in ns ==> Started(c, n)
    ensures Collect(u, c, ns) == Step(c, Ok(Beans(c, ns)))
    decreases |ns|
  {
    if ns != [] {
      assert Started(c, ns[0]) by { assert ns[0] in ns; }
      var i := c.names[ns[0]];
      var o := c.slots[i].obj.value;
      assert SlotValid(u, c.slots[i]) && TypeValid(u, u.objectType) && TypeValid(u, o.rtype);
      assert StartIfNeeded(u, c, i) == c;
      assert GetBean(u, c, ns[0], u.objectType) == Step(c, Ok(o));
      CollectStable(u, c, ns[1..]);
      CollectCons(c, c, ns, o);
    }
  }

  /** A second `startAll` after a successful one leaves the container as it is. */
  lemma StartAllTwice(u: Universe, c: Container, keys: seq<string>)
    requires Valid(u, c) && Distinct(keys)
    requires forall n :: n in keys <==> n in c.names
    requires StartAll(u, c, keys).r.Ok?
    ensures StartAll(u, StartAll(u, c, keys).c, keys) == Step(StartAll(u, c, keys).c, Ok(()))
  {
    var c1 := StartAll(u, c, keys).c;
    if keys != [] {
      assert c1.state == Running;
      CollectStable(u, c1, keys);
    }
  }
}

=== FILE: lookup.dfy ===
/**
  Lookup and construction: `getBean`, `contructObject`, and the resolution of
  constructor, field and method dependencies, which call `getBean` again. The
  four functions are mutually recursive; each recursive lookup happens after the
  resource being built has been marked under construction, so the number of
  resources that could still start a construction (`Unbuilt`) bounds the depth.
*/
module Lookup {
  import opened Wrappers
  import opened Types
  import opened Errors
  import opened Resources
  import opened ManagerState
  import opened Lifecycle

  /** Marks resource `i` under construction, as the first step of building it. */
  function BeginConstruction(u: Universe, c: Container, i: nat): (c': Container)
    requires Valid(u, c) && i < |c.slots| && IsUnbuilt(c.slots[i])
    ensures Valid(u, c') && Evolves(c, c')
    ensures c'.slots[i].underConstruction && c'.slots[i].obj.None?
    ensures Unbuilt(c'.slots) + 1 == Unbuilt(c.slots)
  {
    var c' := c.(slots := c.slots[i := SetUnderConstruction(c.slots[i], true)]);
    UnbuiltDrops(c.slots, i, c'.slots[i]);
    BeginValid(u, c, i, c');
    c'
  }

  lemma BeginValid(u: Universe, c: Container, i: nat, c': Container)
    requires Valid(u, c) && i < |c.slots| && IsUnbuilt(c.slots[i])
    requires c' == c.(slots := c.slots[i := SetUnderConstruction(c.slots[i], true)])
    ensures Valid(u, c') && Evolves(c, c')
  {
    assert i !in c.startedOrder;
    forall j | 0 <= j < |c'.slots|
      ensures SlotValid(u, c'.slots[j])
      ensures j in c'.startedOrder <==> StartedLifeCycle(u, c'.slots[j])
    {
      assert SlotValid(u, c.slots[j]);
      assert j in c.startedOrder <==> StartedLifeCycle(u, c.slots[j]);
    }
    if c.state == Running {
      forall k | 0 <= k < |c'.trace|
        ensures c'.startedOrder[k] < |c'.slots| && c'.slots[c'.startedOrder[k]].obj == Some(c'.trace[k].bean)
      {
        assert c.slots[c.startedOrder[k]].obj == Some(c.trace[k].bean);
      }
    }
    assert Keeps(c, c');
    WiringKept(u, c, c');
    OrderKept(u, c, c');
    forall j | 0 <= j < |c.slots|
      ensures SlotEvolves(c.slots[j], c'.slots[j])
    {
    }
  }

  /**
    Stores the newly built object on resource `i`, clears its under-construction
    flag, and records what was injected into the object.
  */
  function Install(u: Universe, c: Container, i: nat, bean: Obj, deps: seq<Obj>): (c': Container)
    requires Valid(u, c) && i < |c.slots| && c.slots[i].obj.None?
    requires bean.rtype == c.slots[i].component
    requires Supplied(u, c, AllPoints(c.slots[i].component, u.types[c.slots[i].component]), deps)
    ensures Valid(u, c') && Keeps(c, c')
    ensures c'.slots[i] == SetUnderConstruction(SetObject(c.slots[i], bean), false)
    ensures forall j :: 0 <= j < |c.slots| && j != i ==> c'.slots[j] == c.slots[j]
    ensures c' == c.(slots := c'.slots, injected := c.injected[i := deps])
  {
    var c' := c.(slots := c.slots[i := SetUnderConstruction(SetObject(c.slots[i], bean), false)],
                 injected := c.injected[i := deps]);
    InstallValid(u, c, i, bean, deps, c');
    c'
  }

  lemma InstallValid(u: Universe, c: Container, i: nat, bean: Obj, deps: seq<Obj>, c': Container)
    requires Valid(u, c) && i < |c.slots| && c.slots[i].obj.None?
    requires bean.rtype == c.slots[i].component
    requires Supplied(u, c, AllPoints(c.slots[i].component, u.types[c.slots[i].component]), deps)
    requires c' == c.(slots := c.slots[i := SetUnderConstruction(SetObject(c.slots[i], bean), false)],
                      injected := c.injected[i := deps])
    ensures Valid(u, c') && Keeps(c, c')
  {
    InstallSlots(u, c, i, bean, c'.slots);
    InstallTrace(u, c, i, c');
    assert Keeps(c, c');
    InstallWiring(u, c, i, deps, c');
    assert i !in c.startedOrder by { assert SlotValid(u, c.slots[i]); }
    OrderKept(u, c, c');
  }

  lemma InstallSlots(u: Universe, c: Container, i: nat, bean: Obj, slots': seq<Slot>)
    requires Valid(u, c) && i < |c.slots| && c.slots[i].obj.None?
    requires bean.rtype == c.slots[i].component
    requires slots' == c.slots[i := SetUnderConstruction(SetObject(c.slots[i], bean), false)]
    ensures forall j :: 0 <= j < |slots'| ==> SlotValid(u, slots'[j])
    ensures forall j :: 0 <= j < |slots'| ==> (j in c.startedOrder <==> StartedLifeCycle(u, slots'[j]))
  {
    assert SlotValid(u, c.slots[i]);
    forall j | 0 <= j < |slots'|
      ensures SlotValid(u, slots'[j])
      ensures j in c.startedOrder <==> StartedLifeCycle(u, slots'[j])
    {
      assert SlotValid(u, c.slots[j]);
      assert j in c.startedOrder <==> StartedLifeCycle(u, c.slots[j]);
    }
  }

  lemma InstallTrace(u: Universe, c: Container, i: nat, c': Container)
    requires Valid(u, c) && i < |c.slots| && c.slots[i].obj.None?
    requires |c'.slots| == |c.slots|
    requires forall j :: 0 <= j < |c.slots| && j != i ==> c'.slots[j] == c.slots[j]
    requires c'.trace == c.trace && c'.startedOrder == c.startedOrder && c'.state == c.state
    ensures c.state == Running ==> TraceMatches(c')
  {
    assert SlotValid(u, c.slots[i]);
    assert i !in c.startedOrder;
    if c.state == Running {
      forall k | 0 <= k < |c'.trace|
        ensures c'.startedOrder[k] < |c'.slots| && c'.slots[c'.startedOrder[k]].obj == Some(c'.trace[k].bean)
      {
        assert c.slots[c.startedOrder[k]].obj == Some(c.trace[k].bean);
      }
    }
  }

  lemma InstallWiring(u: Universe, c: Container, i: nat, deps: seq<Obj>, c': Container)
    requires Valid(u, c) && i < |c.slots| && c.slots[i].obj.None?
    requires Supplied(u, c, AllPoints(c.slots[i].component, u.types[c.slots[i].component]), deps)
    requires Keeps(c, c') && |c'.slots| == |c.slots| && c'.slots[i].obj.Some?
    requires forall j :: 0 <= j < |c.slots| ==> c'.slots[j].component == c.slots[j].component
    requires c'.injected == c.injected[i := deps]
    ensures WiringValid(u, c')
  {
    forall n | n in c'.injected
      ensures n < |c'.slots| && c'.slots[n].obj.Some? && c'.slots[n].component < |u.types|
      ensures Supplied(u, c', AllPoints(c'.slots[n].component, u.types[c'.slots[n].component]), c'.injected[n])
    {
      assert SlotValid(u, c.slots[n]);
      SuppliedKept(u, c, c', AllPoints(c.slots[n].component, u.types[c.slots[n].component]), c'.injected[n]);
    }
  }

  /**
    `getBean(name, type)`: refused after shutdown; fails for an unbound name; a
    resource with an object hands out that same object after checking its runtime
    class (and starts it on first retrieval); otherwise the resource is built.
  */
  function GetBean(u: Universe, c: Container, name: string, expected: TypeId): (r: Step<Obj>)
    requires Valid(u, c) && expected < |u.types|
    ensures r.r.Err? ==> r.r.error.IsResourceException()
    ensures Valid(u, r.c) && Evolves(c, r.c)
    ensures r.r.Ok? ==>
              && Holds(r.c, name, r.r.value)
              && r.r.value.rtype < |u.types|
              && Assignable(u, r.r.value.rtype, expected)
    ensures c.state == Shutdown ==> r == Step(c, Err(LookupNotAllowed))
    ensures c.state == Running && name !in c.names ==> r == Step(c, Err(Unregistered(name)))
    ensures c.state == Running && name in c.names && c.slots[c.names[name]].obj.Some? ==>
              var o := c.slots[c.names[name]].obj.value;
              && o.rtype < |u.types|
              && r.r == (if Assignable(u, o.rtype, expected) then Ok(o) else Err(WrongType(name, o.rtype, expected)))
              && (r.r.Err? ==> r.c == c)
    decreases Unbuilt(c.slots), 1, 0
  {
    if c.state == Shutdown then Step(c, Err(LookupNotAllowed))
    else if name !in c.names then Step(c, Err(Unregistered(name)))
    else
      var i := c.names[name];
      var s := c.slots[i];
      assert SlotValid(u, s);
      match s.obj
      case Some(o) =>
        if !Assignable(u, o.rtype, expected) then Step(c, Err(WrongType(name, o.rtype, expected)))
        else Step(StartIfNeeded(u, c, i), Ok(o))
      case None => Construct(u, c, name, i, expected)
  }

  /** `getBean(Class)`: the lookup under the class's own name, expecting that class. */
  function GetBeanOfType(u: Universe, c: Container, t: TypeId): (r: Step<Obj>)
    requires Valid(u, c) && t < |u.types|
    ensures Valid(u, r.c) && Evolves(c, r.c)
    ensures r.r.Ok? ==> Holds(r.c, u.types[t].name, r.r.value) && r.r.value.rtype < |u.types| && Assignable(u, r.r.value.rtype, t)
    ensures c.state == Shutdown ==> r == Step(c, Err(LookupNotAllowed))
    ensures c.state == Running && u.types[t].name !in c.names ==> r == Step(c, Err(Unregistered(u.types[t].name)))
  {
    GetBean(u, c, u.types[t].name, t)
  }

  /**
    `contructObject`: the type check comes first and leaves the resource alone;
    then a resource already under construction is a cycle. Otherwise the resource
    is marked under construction before anything else, and the flag is only
    cleared once the object is built and injected, so a failure leaves the resource
    failing with a cycle error on every later lookup.
  */
  function Construct(u: Universe, c: Container, name: string, i: nat, expected: TypeId): (r: Step<Obj>)
    requires Valid(u, c) && expected < |u.types|
    requires name in c.names && c.names[name] == i && c.slots[i].obj.None?
    ensures r.r.Err? ==> r.r.error.IsResourceException()
    ensures Valid(u, r.c) && Evolves(c, r.c)
    ensures r.r.Ok? ==>
              && Holds(r.c, name, r.r.value)
              && r.r.value == Made(r.r.value.id, c.slots[i].component)
              && Assignable(u, r.r.value.rtype, expected)
              && i in r.c.injected
    ensures !Assignable(u, c.slots[i].component, expected) ==>
              r == Step(c, Err(WrongType(name, c.slots[i].component, expected)))
    ensures Assignable(u, c.slots[i].component, expected) && c.slots[i].underConstruction ==>
              r == Step(c, Err(Cycle(name)))
    ensures Assignable(u, c.slots[i].component, expected) && !c.slots[i].underConstruction && r.r.Err? ==>
              && r.c.slots[i].underConstruction && r.c.slots[i].obj.None?
              && (r.r.error.ConstructorCount? || r.r.error.ConstructorThrew? || r.r.error.Unsatisfied?)
    decreases Unbuilt(c.slots), 0, 0
  {
    var s := c.slots[i];
    assert SlotValid(u, s);
    if !Assignable(u, s.component, expected) then Step(c, Err(WrongType(name, s.component, expected)))
    else if s.underConstruction then Step(c, Err(Cycle(name)))
    else
      var c1 := BeginConstruction(u, c, i);
      var b := Build(u, c1, name, i);
      UnmarkBegun(u, c, i);
      b
  }

  /**
    `getConstructorFor` and the argument resolution of `instantiateBean`, on a
    resource already under construction: exactly one public constructor, then its
    arguments resolved in order.
  */
  function Build(u: Universe, c: Container, name: string, i: nat): (r: Step<Obj>)
    requires Valid(u, c)
    requires name in c.names && c.names[name] == i
    requires c.slots[i].underConstruction && c.slots[i].obj.None?
    ensures r.r.Err? ==> r.r.error.IsResourceException()
    ensures Valid(u, r.c) && Evolves(Unmarked(c, i), r.c)
    ensures r.r.Ok? ==>
              && Holds(r.c, name, r.r.value)
              && r.r.value == Made(r.r.value.id, c.slots[i].component)
              && i in r.c.injected
    ensures r.r.Err? ==>
              && r.c.slots[i].underConstruction && r.c.slots[i].obj.None?
              && (r.r.error.ConstructorCount? || r.r.error.ConstructorThrew? || r.r.error.Unsatisfied?)
    ensures c.slots[i].component < |u.types| && u.types[c.slots[i].component].publicConstructors != 1 ==>
              r == Step(c, Err(ConstructorCount(c.slots[i].component, u.types[c.slots[i].component].publicConstructors)))
    decreases Unbuilt(c.slots), 6, 0
  {
    var s := c.slots[i];
    assert SlotValid(u, s);
    var d := u.types[s.component];
    UnmarkedEvolves(c, i);
    if d.publicConstructors != 1 then Step(c, Err(ConstructorCount(s.component, d.publicConstructors)))
    else
      PointsValid(u, s.component);
      var a := ResolveAll(u, c, ConstructorPoints(s.component, d));
      EvolvesTransitive(Unmarked(c, i), c, a.c);
      if a.r.Err? then Step(a.c, Err(a.r.error))
      else
        EvolvesUnbuilt(c, a.c);
        var n := Instantiate(u, a.c, name, i, a.r.value);
        BuildEvolves(c, a.c, n.c, i);
        n
  }

  /**
    `constructor.newInstance`: a constructor that throws surfaces with its own
    exception as the cause; otherwise a new object of the resource's class exists.
  */
  function Instantiate(u: Universe, c: Container, name: string, i: nat, args: seq<Obj>): (r: Step<Obj>)
    requires Valid(u, c)
    requires name in c.names && c.names[name] == i
    requires c.slots[i].underConstruction && c.slots[i].obj.None?
    requires Supplied(u, c, ConstructorPoints(c.slots[i].component, u.types[c.slots[i].component]), args)
    ensures r.r.Err? ==> r.r.error.IsResourceException()
    ensures Valid(u, r.c) && Evolves(Unmarked(c, i), r.c)
    ensures r.r.Ok? ==>
              && Holds(r.c, name, r.r.value)
              && r.r.value == Made(c.nextId, c.slots[i].component)
              && i in r.c.injected
    ensures r.r.Err? ==> r.c.slots[i].underConstruction && r.c.slots[i].obj.None?
    ensures u.types[c.slots[i].component].constructorThrows.Some? ==>
              r == Step(c, Err(ConstructorThrew(name, u.types[c.slots[i].component].constructorThrows.value)))
    ensures u.types[c.slots[i].component].constructorThrows.None? && r.r.Err? ==> r.r.error.Unsatisfied?
    decreases Unbuilt(c.slots), 5, 0
  {
    var s := c.slots[i];
    assert SlotValid(u, s);
    var d := u.types[s.component];
    UnmarkedEvolves(c, i);
    if d.constructorThrows.Some? then Step(c, Err(ConstructorThrew(name, d.constructorThrows.value)))
    else
      var bean := Made(c.nextId, s.component);
      var c2 := c.(nextId := c.nextId + 1);
      Advance(u, c, c2);
      SuppliedKept(u, c, c2, ConstructorPoints(s.component, d), args);
      var n := Inject(u, c2, name, i, bean, args);
      UnmarkedSame(c, c2, i);
      EvolvesTransitive(Unmarked(c, i), Unmarked(c2, i), n.c);
      n
  }

  /**
    `performFieldInjection` and `performMethodInjection` on the new object, then
    `setObject`, the cleared flag, and the start of the bean.
  */
  function Inject(u: Universe, c: Container, name: string, i: nat, bean: Obj, args: seq<Obj>): (r: Step<Obj>)
    requires Valid(u, c)
    requires name in c.names && c.names[name] == i
    requires c.slots[i].underConstruction && c.slots[i].obj.None?
    requires bean == Made(bean.id, c.slots[i].component)
    requires Supplied(u, c, ConstructorPoints(c.slots[i].component, u.types[c.slots[i].component]), args)
    ensures r.r.Err? ==> r.r.error.IsResourceException()
    ensures Valid(u, r.c) && Evolves(Unmarked(c, i), r.c)
    ensures r.r.Ok? ==> r.r == Ok(bean) && Holds(r.c, name, bean) && i in r.c.injected
    ensures r.r.Err? ==>
              && r.c.slots[i].underConstruction && r.c.slots[i].obj.None?
              && r.r.error.Unsatisfied?
    decreases Unbuilt(c.slots), 4, 0
  {
    var s := c.slots[i];
    assert SlotValid(u, s);
    var d := u.types[s.component];
    PointsValid(u, s.component);
    var f := ResolveAll(u, c, InjectionPoints(s.component, d));
    if f.r.Err? then
      UnmarkedEvolves(c, i);
      EvolvesTransitive(Unmarked(c, i), c, f.c);
      Step(f.c, Err(f.r.error))
    else
      EvolvesKeeps(c, f.c);
      SuppliedKept(u, c, f.c, ConstructorPoints(s.component, d), args);
      SuppliedConcat(u, f.c, ConstructorPoints(s.component, d), args, InjectionPoints(s.component, d), f.r.value);
      var c' := Finish(u, f.c, name, i, bean, args + f.r.value);
      UnmarkedSame(c, f.c, i);
      EvolvesTransitive(Unmarked(c, i), Unmarked(f.c, i), c');
      Step(c', Ok(bean))
  }

  /** `setObject`, the cleared flag, and the start of the new bean. */
  function Finish(u: Universe, c: Container, name: string, i: nat, bean: Obj, deps: seq<Obj>): (c': Container)
    requires Valid(u, c)
    requires name in c.names && c.names[name] == i
    requires c.slots[i].underConstruction && c.slots[i].obj.None?
    requires bean == Made(bean.id, c.slots[i].component)
    requires Supplied(u, c, AllPoints(c.slots[i].component, u.types[c.slots[i].component]), deps)
    ensures Valid(u, c') && Evolves(Unmarked(c, i), c')
    ensures Holds(c', name, bean) && i in c'.injected && c'.injected[i] == deps
  {
    var c3 := Install(u, c, i, bean, deps);
    var c4 := StartIfNeeded(u, c3, i);
    UnmarkedEvolves(c, i);
    InstallEvolves(Unmarked(c, i), c, c3, c4, i);
    c4
  }

  /**
    `getBeanForInject`: by the `@Inject` name when given and non-empty, else by the
    declared type's name, always expecting the declared type; any failure comes
    back wrapped once more as an unsatisfied dependency of the owning class.
  */
  function Resolve(u: Universe, c: Container, p: Point): (r: Step<Obj>)
    requires Valid(u, c) && p.dep.declared < |u.types|
    ensures r.r.Err? ==> r.r.error.IsResourceException()
    ensures Valid(u, r.c) && Evolves(c, r.c)
    ensures r.r.Ok? ==> Supplies(u, r.c, p, r.r.value)
    ensures r.r.Err? ==>
              && r.r.error.Unsatisfied?
              && r.r.error.declaring == p.declaring
              && r.r.error.argType == p.dep.declared
    decreases Unbuilt(c.slots), 2, 0
  {
    var g := GetBean(u, c, DependencyName(u, p.dep), p.dep.declared);
    if g.r.Err? then Step(g.c, Err(Unsatisfied(p.declaring, p.dep.declared, g.r.error)))
    else g
  }

  /** `getBeansForInject`: resolves the dependencies in order, stopping at the first failure. */
  function ResolveAll(u: Universe, c: Container, ps: seq<Point>): (r: Step<seq<Obj>>)
    requires Valid(u, c)
    requires forall p :: p in ps ==> p.dep.declared < |u.types|
    ensures r.r.Err? ==> r.r.error.IsResourceException()
    ensures Valid(u, r.c) && Evolves(c, r.c)
    ensures r.r.Ok? ==> Supplied(u, r.c, ps, r.r.value)
    ensures r.r.Err? ==> r.r.error.Unsatisfied?
    decreases Unbuilt(c.slots), 3, |ps|
  {
    if ps == [] then Step(c, Ok([]))
    else
      var h := Resolve(u, c, ps[0]);
      if h.r.Err? then Step(h.c, Err(h.r.error))
      else
        EvolvesUnbuilt(c, h.c);
        var t := ResolveAll(u, h.c, ps[1..]);
        EvolvesTransitive(c, h.c, t.c);
        if t.r.Err? then Step(t.c, Err(t.r.error))
        else
          SuppliedCons(u, h.c, t.c, ps, h.r.value, t.r.value);
          Step(t.c, Ok([h.r.value] + t.r.value))
  }

  /** Taking the next object identity changes nothing else. */
  lemma Advance(u: Universe, c: Container, c2: Container)
    requires Valid(u, c) && c2 == c.(nextId := c.nextId + 1)
    ensures Valid(u, c2) && Evolves(c, c2) && Keeps(c, c2)
    ensures Unbuilt(c2.slots) <= Unbuilt(c.slots)
  {
    assert WiringValid(u, c2);
    assert StartsAfterDeps(u, c2);
  }

  /** The state as it was just before the construction of resource `i` began. */
  function Unmarked(c: Container, i: nat): Container
    requires i < |c.slots|
  {
    c.(slots := c.slots[i := SetUnderConstruction(c.slots[i], false)])
  }

  /** Clearing the flag of a resource whose construction just began gives back the state before. */
  lemma UnmarkBegun(u: Universe, c: Container, i: nat)
    requires Valid(u, c) && i < |c.slots| && IsUnbuilt(c.slots[i])
    ensures Unmarked(BeginConstruction(u, c, i), i) == c
  {
    var c1 := BeginConstruction(u, c, i);
    assert c1.slots == c.slots[i := SetUnderConstruction(c.slots[i], true)];
    assert Unmarked(c1, i).slots == c.slots;
  }

  lemma UnmarkedEvolves(c: Container, i: nat)
    requires i < |c.slots| && c.slots[i].obj.None?
    ensures Evolves(Unmarked(c, i), c)
  {
    forall j | 0 <= j < |c.slots|
      ensures SlotEvolves(Unmarked(c, i).slots[j], c.slots[j])
    {
    }
  }

  /** Evolving from a state under construction is evolving from the state before it. */
  lemma UnmarkedSame(c: Container, c': Container, i: nat)
    requires i < |c.slots| && c.slots[i].obj.None?
    requires Evolves(c, c')
    ensures Evolves(Unmarked(c, i), Unmarked(c', i))
  {
    forall j | 0 <= j < |c.slots|
      ensures SlotEvolves(Unmarked(c, i).slots[j], Unmarked(c', i).slots[j])
    {
      assert SlotEvolves(c.slots[j], c'.slots[j]);
    }
  }

  lemma BuildEvolves(c: Container, a: Container, n: Container, i: nat)
    requires i < |c.slots| && c.slots[i].obj.None?
    requires Evolves(c, a) && Evolves(Unmarked(a, i), n)
    ensures Evolves(Unmarked(c, i), n)
  {
    UnmarkedSame(c, a, i);
    EvolvesTransitive(Unmarked(c, i), Unmarked(a, i), n);
  }

  lemma SuppliedCons(u: Universe, c: Container, c': Container, ps: seq<Point>, o: Obj, os: seq<Obj>)
    requires Evolves(c, c') && |ps| > 0
    requires Supplies(u, c, ps[0], o) && Supplied(u, c', ps[1..], os)
    ensures Supplied(u, c', ps, [o] + os)
  {
    EvolvesKeeps(c, c');
    SuppliedKept(u, c, c', [ps[0]], [o]);
    SuppliedConcat(u, c', [ps[0]], [o], ps[1..], os);
    assert [ps[0]] + ps[1..] == ps;
  }

  lemma PointsValid(u: Universe, t: TypeId)
    requires ValidUniverse(u) && t < |u.types|
    ensures forall p :: p in ConstructorPoints(t, u.types[t]) ==> p.dep.declared < |u.types|
    ensures forall p :: p in InjectionPoints(t, u.types[t]) ==> p.dep.declared < |u.types|
  {
    assert TypeValid(u, t);
  }

  /** The whole construction, seen from its start, is an evolution of the container. */
  lemma InstallEvolves(c: Container, f: Container, c3: Container, c4: Container, i: nat)
    requires Evolves(c, f) && Evolves(c3, c4)
    requires i < |c.slots| && IsUnbuilt(c.slots[i])
    requires |c3.slots| == |f.slots|
    requires c3.slots[i].obj.Some? && c3.slots[i].component == f.slots[i].component
    requires c3.slots[i].names == f.slots[i].names && c3.slots[i].started == f.slots[i].started
    requires forall j :: 0 <= j < |f.slots| && j != i ==> c3.slots[j] == f.slots[j]
    requires c3 == f.(slots := c3.slots, injected := c3.injected)
    requires forall n :: n in f.injected ==> n in c3.injected && c3.injected[n] == f.injected[n]
    ensures Evolves(c, c4)
  {
    assert SlotEvolves(c.slots[i], f.slots[i]);
    forall j | 0 <= j < |c.slots|
      ensures SlotEvolves(c.slots[j], c3.slots[j])
    {
      assert SlotEvolves(c.slots[j], f.slots[j]);
    }
    assert Evolves(c, c3);
    EvolvesTransitive(c, c3, c4);
  }
}

=== FILE: properties.dfy ===
/**
  Properties of the container across operations: one object per resource,
  injected objects are the ones a lookup returns, failed constructions poison
  their resource, hooks run once and in dependency order, and shutdown closes
  the container.
*/
module Properties {
  import opened Wrappers
  import opened Types
  import opened Errors
  import opened Resources
  import opened ManagerState
  import opened Lifecycle
  import opened Binding
  import opened Lookup

  /** A new container hands itself out under the ResourceManager name. */
  lemma NewServesItself(u: Universe)
    requires ValidUniverse(u)
    ensures GetBeanOfType(u, New(u), u.managerInterface).r == Ok(Self(u))
  {
    var c := New(u);
    assert c.names[u.types[u.managerInterface].name] == 0;
    assert c.slots[0].obj == Some(Self(u));
  }

  /**
    Singleton: once a lookup succeeded, looking the same name up again returns
    the same object and changes nothing (no second construction, no second onStart).
  */
  lemma LookupAgain(u: Universe, c: Container, name: string, t: TypeId)
    requires Valid(u, c) && t < |u.types|
    requires GetBean(u, c, name, t).r.Ok?
    ensures var r := GetBean(u, c, name, t);
            GetBean(u, r.c, name, t) == r.(c := r.c)
  {
    var r := GetBean(u, c, name, t);
    var i := r.c.names[name];
    assert r.c.slots[i].obj == Some(r.r.value) && r.c.slots[i].started;
    assert StartIfNeeded(u, r.c, i) == r.c;
  }

  /**
    Singleton across names: a name bound to the same resource as a name already
    looked up returns the same object, or a type error if the requested type does not fit.
  */
  lemma AliasSameBean(u: Universe, c: Container, n1: string, n2: string, t1: TypeId, t2: TypeId)
    requires Valid(u, c) && t1 < |u.types| && t2 < |u.types|
    requires n1 in c.names && n2 in c.names && c.names[n1] == c.names[n2]
    requires GetBean(u, c, n1, t1).r.Ok?
    ensures var r1 := GetBean(u, c, n1, t1);
            var o := r1.r.value;
            GetBean(u, r1.c, n2, t2).r == (if Assignable(u, o.rtype, t2) then Ok(o) else Err(WrongType(n2, o.rtype, t2)))
  {
    var r1 := GetBean(u, c, n1, t1);
    assert r1.c.names == c.names;
    assert r1.c.slots[r1.c.names[n2]].obj == Some(r1.r.value);
  }

  /**
    An object injected into a built bean is exactly what looking its dependency
    up returns now, and the lookup changes nothing.
  */
  lemma InjectedIsLookup(u: Universe, c: Container, i: nat, k: nat)
    requires Valid(u, c) && c.state == Running && i in c.injected
    requires k < |AllPoints(c.slots[i].component, u.types[c.slots[i].component])|
    ensures var p := AllPoints(c.slots[i].component, u.types[c.slots[i].component])[k];
            && p.dep.declared < |u.types|
            && GetBean(u, c, DependencyName(u, p.dep), p.dep.declared) == Step(c, Ok(c.injected[i][k]))
  {
    var ps := AllPoints(c.slots[i].component, u.types[c.slots[i].component]);
    assert Supplies(u, c, ps[k], c.injected[i][k]);
    var j := c.names[DependencyName(u, ps[k].dep)];
    assert StartIfNeeded(u, c, j) == c;
    HeldServes(u, c, DependencyName(u, ps[k].dep), c.injected[i][k], ps[k].dep.declared);
  }

  /** A bean already held and already started is served as it is, with no change. */
  lemma HeldServes(u: Universe, c: Container, name: string, o: Obj, t: TypeId)
    requires Valid(u, c) && c.state == Running && t < |u.types|
    requires Holds(c, name, o) && o.rtype < |u.types| && Assignable(u, o.rtype, t)
    requires StartIfNeeded(u, c, c.names[name]) == c
    ensures GetBean(u, c, name, t) == Step(c, Ok(o))
  {
  }

  /**
    A resource whose class has one public constructor, no dependencies and a
    constructor that returns is built on its first lookup: the result is a new
    object of that class, numbered by the container's next object id.
  */
  lemma LeafBuilds(u: Universe, c: Container, name: string, t: TypeId)
    requires Valid(u, c) && t < |u.types| && c.state == Running && name in c.names
    requires IsUnbuilt(c.slots[c.names[name]])
    requires var k := c.slots[c.names[name]].component;
             && Assignable(u, k, t)
             && u.types[k].publicConstructors == 1
             && u.types[k].constructorThrows.None?
             && AllPoints(k, u.types[k]) == []
    ensures GetBean(u, c, name, t).r == Ok(Made(c.nextId, c.slots[c.names[name]].component))
  {
    var i := c.names[name];
    assert SlotValid(u, c.slots[i]);
    var c1 := BeginConstruction(u, c, i);
    LeafBuild(u, c1, name, i);
  }

  lemma LeafBuild(u: Universe, c: Container, name: string, i: nat)
    requires Valid(u, c)
    requires name in c.names && c.names[name] == i
    requires c.slots[i].underConstruction && c.slots[i].obj.None?
    requires var k := c.slots[i].component;
             && u.types[k].publicConstructors == 1
             && u.types[k].constructorThrows.None?
             && AllPoints(k, u.types[k]) == []
    ensures Build(u, c, name, i).r == Ok(Made(c.nextId, c.slots[i].component))
  {
    var k := c.slots[i].component;
    assert ConstructorPoints(k, u.types[k]) == [];
    LeafInstantiate(u, c, name, i);
  }

  lemma LeafInstantiate(u: Universe, c: Container, name: string, i: nat)
    requires Valid(u, c)
    requires name in c.names && c.names[name] == i
    requires c.slots[i].underConstruction && c.slots[i].obj.None?
    requires var k := c.slots[i].component;
             && u.types[k].constructorThrows.None?
             && AllPoints(k, u.types[k]) == []
    ensures Instantiate(u, c, name, i, []).r == Ok(Made(c.nextId, c.slots[i].component))
  {
    var k := c.slots[i].component;
    assert SlotValid(u, c.slots[i]);
    assert ConstructorPoints(k, u.types[k]) == [] && InjectionPoints(k, u.types[k]) == [];
    var c2 := c.(nextId := c.nextId + 1);
    Advance(u, c, c2);
    assert ResolveAll(u, c2, InjectionPoints(k, u.types[k])).r == Ok([]);
  }

  /** The bean of resource `name` is built by a lone public constructor that throws `m`. */
  predicate ThrowsOnBuild(u: Universe, c: Container, name: string, m: string)
  {
    && name in c.names && c.names[name] < |c.slots|
    && IsUnbuilt(c.slots[c.names[name]])
    && c.slots[c.names[name]].component < |u.types|
    && var k := c.slots[c.names[name]].component;
       && u.types[k].publicConstructors == 1
       && u.types[k].constructorParams == []
       && u.types[k].constructorThrows == Some(m)
  }

  lemma ThrowingBuild(u: Universe, c: Container, name: string, m: string)
    requires Valid(u, c) && name in c.names
    requires c.slots[c.names[name]].underConstruction && c.slots[c.names[name]].obj.None?
    requires var k := c.slots[c.names[name]].component;
             && u.types[k].publicConstructors == 1
             && u.types[k].constructorParams == []
             && u.types[k].constructorThrows == Some(m)
    ensures Build(u, c, name, c.names[name]) == Step(c, Err(ConstructorThrew(name, m)))
  {
    var i := c.names[name];
    assert SlotValid(u, c.slots[i]);
    var k := c.slots[i].component;
    assert ConstructorPoints(k, u.types[k]) == [];
  }

  /**
    A resource whose only constructor argument is a resource whose constructor
    throws: the first lookup fails with that exception wrapped once, naming the
    class and its dependency, and leaves both resources poisoned.
  */
  lemma ThrowPropagates(u: Universe, c: Container, name: string, t: TypeId, dep: string, m: string)
    requires Valid(u, c) && t < |u.types| && c.state == Running && name in c.names
    requires IsUnbuilt(c.slots[c.names[name]])
    requires var k := c.slots[c.names[name]].component;
             && Assignable(u, k, t)
             && u.types[k].publicConstructors == 1
             && |u.types[k].constructorParams| == 1
             && u.types[k].constructorParams[0].declared < |u.types|
             && DependencyName(u, u.types[k].constructorParams[0]) == dep
    requires ThrowsOnBuild(u, c, dep, m) && c.names[dep] != c.names[name]
    requires Assignable(u, c.slots[c.names[dep]].component, u.types[c.slots[c.names[name]].component].constructorParams[0].declared)
    ensures var k := c.slots[c.names[name]].component;
            var r := GetBean(u, c, name, t);
            && r.r == Err(Unsatisfied(k, u.types[k].constructorParams[0].declared, ConstructorThrew(dep, m)))
            && Poisoned(r.c, name) && Poisoned(r.c, dep)
  {
    var i := c.names[name];
    var j := c.names[dep];
    var k := c.slots[i].component;
    assert SlotValid(u, c.slots[i]);
    var p := Point(k, u.types[k].constructorParams[0]);
    assert ConstructorPoints(k, u.types[k]) == [p];
    var c1 := BeginConstruction(u, c, i);
    assert c1.slots[j] == c.slots[j];
    var c2 := BeginConstruction(u, c1, j);
    ThrowingBuild(u, c2, dep, m);
    assert GetBean(u, c1, dep, p.dep.declared) == Step(c2, Err(ConstructorThrew(dep, m)));
    assert ResolveAll(u, c1, [p]) == Step(c2, Err(Unsatisfied(k, p.dep.declared, ConstructorThrew(dep, m))));
    assert Build(u, c1, name, i) == Step(c2, Err(Unsatisfied(k, p.dep.declared, ConstructorThrew(dep, m))));
  }

  /** Resource `name` is stuck under construction without an object. */
  predicate Poisoned(c: Container, name: string)
  {
    name in c.names && c.names[name] < |c.slots|
    && c.slots[c.names[name]].underConstruction && c.slots[c.names[name]].obj.None?
  }

  /**
    A construction that passed the type and cycle checks and then failed leaves
    its resource under construction for good.
  */
  lemma FailedConstructionPoisons(u: Universe, c: Container, name: string, t: TypeId)
    requires Valid(u, c) && t < |u.types| && c.state == Running && name in c.names
    requires IsUnbuilt(c.slots[c.names[name]]) && Assignable(u, c.slots[c.names[name]].component, t)
    requires GetBean(u, c, name, t).r.Err?
    ensures Poisoned(GetBean(u, c, name, t).c, name)
  {
    assert SlotValid(u, c.slots[c.names[name]]);
  }

  /** Every later lookup of a poisoned resource fails, without changing anything. */
  lemma PoisonedFailsForever(u: Universe, c: Container, c': Container, name: string, t: TypeId)
    requires Poisoned(c, name) && Grows(c, c') && Valid(u, c')
    requires t < |u.types| && c'.state == Running
    ensures var s := c'.slots[c'.names[name]];
            GetBean(u, c', name, t) ==
              Step(c', Err(if Assignable(u, s.component, t) then Cycle(name) else WrongType(name, s.component, t)))
  {
    var i := c.names[name];
    assert SlotEvolves(c.slots[i], c'.slots[i]);
    assert SlotValid(u, c'.slots[i]);
  }

  /** Building and starting only ever uses up resources: the measure of the recursion never grows. */
  lemma LookupNeverUnbuilds(u: Universe, c: Container, name: string, t: TypeId)
    requires Valid(u, c) && t < |u.types|
    ensures Unbuilt(GetBean(u, c, name, t).c.slots) <= Unbuilt(c.slots)
  {
    EvolvesUnbuilt(c, GetBean(u, c, name, t).c);
  }

  /**
    While running, every hook call is an onStart of a LifeCycle bean, and no
    resource receives onStart twice.
  */
  lemma StartOnce(u: Universe, c: Container, a: nat, b: nat)
    requires Valid(u, c) && c.state == Running
    requires a < |c.trace| && b < |c.trace| && c.trace[a].slot == c.trace[b].slot
    ensures a == b
    ensures c.trace[a].OnStart? && LifeCycleBean(u, c.trace[a].bean)
  {
    assert c.startedOrder[a] == c.startedOrder[b];
    assert StartedLifeCycle(u, c.slots[c.startedOrder[a]]);
  }

  /**
    A LifeCycle resource an object was injected from received onStart before the
    resource it was injected into.
  */
  lemma DependencyStartsFirst(u: Universe, c: Container, i: nat, j: nat, a: nat)
    requires Valid(u, c) && c.state == Running && DependsOn(u, c, i, j)
    requires a < |c.trace| && c.trace[a].slot == i
    requires j < |c.slots| && c.slots[j].obj.Some? && LifeCycleBean(u, c.slots[j].obj.value)
    ensures exists b :: 0 <= b < a && c.trace[b] == OnStart(j, c.slots[j].obj.value)
  {
    DependsOnStarted(u, c, i, j);
    assert StartedLifeCycle(u, c.slots[j]);
    var q :| 0 <= q < |c.startedOrder| && c.startedOrder[q] == j;
    assert c.startedOrder[a] == i;
    assert q < a;
    assert c.trace[q] == OnStart(j, c.slots[j].obj.value);
  }

  /**
    No state guard on shutdown: a second call runs the same onShutdown hooks
    again, in the same order.
  */
  lemma ShutdownTwice(u: Universe, c: Container)
    requires Valid(u, c)
    ensures var c1 := ShutdownContainer(u, c);
            var c2 := ShutdownContainer(u, c1);
            && c2.state == Shutdown
            && c2.trace == c1.trace + c1.trace[|c.trace|..]
  {
    var c1 := ShutdownContainer(u, c);
    var c2 := ShutdownContainer(u, c1);
    var n := |c.startedOrder|;
    assert c1.trace[|c.trace|..] == c2.trace[|c1.trace|..] by {
      forall k | 0 <= k < n
        ensures c1.trace[|c.trace|..][k] == c2.trace[|c1.trace|..][k]
      {
        var e := OnShutdown(c.startedOrder[k], c.slots[c.startedOrder[k]].obj.value);
        assert c1.trace[|c.trace| + k] == e;
        assert c1.startedOrder[k] == c.startedOrder[k] && c1.slots == c.slots;
        assert c2.trace[|c1.trace| + k] == e;
      }
    }
    assert c2.trace == c2.trace[..|c1.trace|] + c2.trace[|c1.trace|..];
  }

  /** After shutdown every bind and every lookup is refused and leaves the container as it is. */
  lemma ShutdownRefuses(u: Universe, c: Container, name: string, t: TypeId, s: Slot)
    requires Valid(u, c) && t < |u.types| && SlotValid(u, s) && !s.started && !s.underConstruction
    ensures var c' := ShutdownContainer(u, c);
            && GetBean(u, c', name, t) == Step(c', Err(LookupNotAllowed))
            && Register(u, c', s) == Step(c', Err(BindingNotAllowed))
  {
  }

  /** Each level of dependency resolution adds exactly one unsatisfied-dependency wrapper. */
  lemma ResolveWrapsOnce(u: Universe, c: Container, p: Point)
    requires Valid(u, c) && p.dep.declared < |u.types|
    requires Resolve(u, c, p).r.Err?
    ensures var e := Resolve(u, c, p).r.error;
            var g := GetBean(u, c, DependencyName(u, p.dep), p.dep.declared);
            && g.r.Err?
            && e.Depth() == g.r.error.Depth() + 1
            && e.Root() == g.r.error.Root()
  {
  }
}

=== FILE: resource.dfy ===
/**
  The per-binding record (`Resource`): the bound class, the names it is reachable
  by, the object once there is one, and the under-construction and started flags.
*/
module Resources {
  import opened Wrappers
  import opened Types

  datatype Slot = Slot(
    component: TypeId,
    names: seq<string>,
    obj: Option<Obj>,
    underConstruction: bool,
    started: bool)

  /** A fresh record: no object yet, neither under construction nor started. */
  function NewSlot(t: TypeId, names: seq<string>): (s: Slot)
    ensures s.component == t && s.names == names
    ensures s.obj.None? && !s.underConstruction && !s.started
  {
    Slot(t, names, None, false, false)
  }

  /** `setObject`: only the object changes. */
  function SetObject(s: Slot, o: Obj): (s': Slot)
    ensures s'.obj == Some(o)
    ensures s'.component == s.component && s'.names == s.names
    ensures s'.underConstruction == s.underConstruction && s'.started == s.started
  {
    s.(obj := Some(o))
  }

  /** `setUnderConstruction`: only the flag changes. */
  function SetUnderConstruction(s: Slot, b: bool): (s': Slot)
    ensures s'.underConstruction == b
    ensures s'.component == s.component && s'.names == s.names && s'.obj == s.obj && s'.started == s.started
  {
    s.(underConstruction := b)
  }

  /** `markStarted`: sets the flag, never clears it. */
  function MarkStarted(s: Slot): (s': Slot)
    ensures s'.started
    ensures s'.component == s.component && s'.names == s.names && s'.obj == s.obj
    ensures s'.underConstruction == s.underConstruction
  {
    s.(started := true)
  }

  /**
    How a record may change over time: type and names never change, an object once
    set is never replaced, started is never reset, and a record under construction
    without an object stays that way.
  */
  predicate SlotEvolves(s: Slot, s': Slot)
  {
    && s'.component == s.component
    && s'.names == s.names
    && (s.obj.Some? ==> s'.obj == s.obj)
    && (s.started ==> s'.started)
    && (s.underConstruction && s.obj.None? ==> s'.underConstruction && s'.obj.None?)
  }

  /** A record that could still start a construction: no object, not under construction. */
  predicate IsUnbuilt(s: Slot)
  {
    s.obj.None? && !s.underConstruction
  }

  /** The number of records that can still start a construction; the termination measure of lookup. */
  function Unbuilt(ss: seq<Slot>): nat
  {
    if ss == [] then 0 else (if IsUnbuilt(ss[0]) then 1 else 0) + Unbuilt(ss[1..])
  }

  /** Records only ever leave the unbuilt state, so the measure never grows. */
  lemma {:induction false} UnbuiltMonotone(ss: seq<Slot>, ss': seq<Slot>)
    requires |ss'| == |ss|
    requires forall j :: 0 <= j < |ss| ==> SlotEvolves(ss[j], ss'[j])
    ensures Unbuilt(ss') <= Unbuilt(ss)
  {
    if ss != [] {
      assert SlotEvolves(ss[0], ss'[0]);
      forall j | 0 <= j < |ss[1..]|
        ensures SlotEvolves(ss[1..][j], ss'[1..][j])
      {
        assert SlotEvolves(ss[j + 1], ss'[j + 1]);
      }
      UnbuiltMonotone(ss[1..], ss'[1..]);
    }
  }

  /** Taking an unbuilt record out of the unbuilt state lowers the measure by one. */
  lemma {:induction false} UnbuiltDrops(ss: seq<Slot>, i: nat, s: Slot)
    requires i < |ss| && IsUnbuilt(ss[i]) && !IsUnbuilt(s)
    ensures Unbuilt(ss[i := s]) + 1 == Unbuilt(ss)
  {
    if i == 0 {
      assert ss[i := s][1..] == ss[1..];
    } else {
      assert ss[i := s][1..] == ss[1..][i - 1 := s];
      UnbuiltDrops(ss[1..], i - 1, s);
    }
  }
}

=== FILE: scenarios.dfy ===
/**
  Concrete runs on a small class universe. The ApiTestBean runs follow the
  container's unit tests: typed binds that must be refused and a lookup under
  the wrong type. `Engine` and `Car` are classes made up for this model, with no
  counterpart in those tests: a dependency whose constructor throws.
*/
module Scenarios {
  import opened Wrappers
  import opened Types
  import opened Errors
  import opened Resources
  import opened ManagerState
  import opened Binding
  import opened Lookup
  import opened Properties

  const Object: TypeId := 0
  const Manager: TypeId := 1
  const ManagerImpl: TypeId := 2
  const Runnable: TypeId := 3
  const Callable: TypeId := 4
  const List: TypeId := 5
  const ApiTestBean: TypeId := 6
  const Engine: TypeId := 7
  const Car: TypeId := 8

  /** A class with one public no-argument constructor and nothing injected. */
  function Plain(name: string, supertypes: set<TypeId>): TypeDesc
  {
    TypeDesc(name, [], supertypes, 1, [], [], [], false, None)
  }

  /**
    `ApiTestBean` implements `Runnable` and `Callable` but not `List`. The made-up
    `Engine`'s constructor throws, and the made-up `Car`'s constructor takes an `Engine`.
  */
  function U(): Universe
  {
    Universe(
      [ Plain("java.lang.Object", {0}),
        TypeDesc("org.yldt.ioc.ResourceManager", [], {1, 0}, 0, [], [], [], false, None),
        Plain("org.yldt.ioc.ApplicationBeanManager", {2, 1, 0}),
        TypeDesc("java.lang.Runnable", [], {3, 0}, 0, [], [], [], false, None),
        TypeDesc("java.util.concurrent.Callable", [], {4, 0}, 0, [], [], [], false, None),
        TypeDesc("java.util.List", [], {5, 0}, 0, [], [], [], false, None),
        Plain("org.yldt.ioc.ApiTestBean", {6, 3, 4, 0}),
        TypeDesc("org.example.Engine", [], {7, 0}, 1, [], [], [], false, Some("boom")),
        TypeDesc("org.example.Car", [], {8, 0}, 1, [Dependency(None, 7)], [], [], false, None) ],
      Object, Manager, ManagerImpl)
  }

  lemma UValid()
    ensures ValidUniverse(U())
  {
    var u := U();
    forall t | 0 <= t < |u.types|
      ensures TypeValid(u, t)
    {
      TypeOk(t);
    }
  }

  lemma TypeOk(t: nat)
    requires t < |U().types|
    ensures TypeValid(U(), t)
  {
    var u := U();
    var d := u.types[t];
    assert AllPoints(t, d) == if t == Car then [Point(Car, Dependency(None, Engine))] else [];
    forall s | s in d.supertypes
      ensures s < |u.types| && u.types[s].supertypes <= d.supertypes
    {
      if t == ApiTestBean {
        assert s in {6, 3, 4, 0};
      } else if t == ManagerImpl {
        assert s in {2, 1, 0};
      }
    }
  }

  /**
    What the scenarios rely on about the classes, stated field by field so that a
    proof about one class does not have to look at the others.
  */
  predicate World(u: Universe)
  {
    && ValidUniverse(u)
    && |u.types| == 9
    && u.objectType == Object && u.managerInterface == Manager && u.managerClass == ManagerImpl
    && u.types[Manager].name == "org.yldt.ioc.ResourceManager"
    && u.types[Runnable].name == "java.lang.Runnable"
    && u.types[Callable].name == "java.util.concurrent.Callable"
    && u.types[ApiTestBean] == Plain("org.yldt.ioc.ApiTestBean", {6, 3, 4, 0})
    && u.types[Engine] == TypeDesc("org.example.Engine", [], {7, 0}, 1, [], [], [], false, Some("boom"))
    && u.types[Car] == TypeDesc("org.example.Car", [], {8, 0}, 1, [Dependency(None, Engine)], [], [], false, None)
  }

  lemma UWorld()
    ensures World(U())
  {
    UValid();
  }

  /** ApiTestBean is a Runnable and a Callable, not a List and not the container. */
  lemma ApiTypes(u: Universe)
    requires World(u)
    ensures Assignable(u, ApiTestBean, ApiTestBean)
    ensures Assignable(u, ApiTestBean, Runnable) && Assignable(u, ApiTestBean, Callable)
    ensures !Assignable(u, ApiTestBean, List) && !Assignable(u, ApiTestBean, ManagerImpl)
    ensures AllPoints(ApiTestBean, u.types[ApiTestBean]) == []
    ensures u.types[ApiTestBean].name == "org.yldt.ioc.ApiTestBean"
    ensures u.types[ApiTestBean].publicConstructors == 1 && u.types[ApiTestBean].constructorThrows.None?
  {
    assert u.types[ApiTestBean].supertypes == {6, 3, 4, 0};
  }

  /** `bind(ApiTestBean, Runnable, Callable)` succeeds. */
  lemma ApiBinds(u: Universe)
    requires World(u)
    ensures BindTyped(u, New(u), ApiTestBean, Runnable, [Callable]).r.Ok?
  {
    ApiTypes(u);
    IntoNew(u, ApiTestBean, Runnable, [Callable]);
  }

  /**
    A typed bind of a fitting class into a new container succeeds when none of its
    names is the container's own.
  */
  lemma IntoNew(u: Universe, t: TypeId, iface: TypeId, extra: seq<TypeId>)
    requires ValidUniverse(u) && t < |u.types| && iface < |u.types|
    requires forall k :: 0 <= k < |extra| ==> extra[k] < |u.types|
    requires Assignable(u, t, iface) && forall k :: 0 <= k < |extra| ==> Assignable(u, t, extra[k])
    requires u.types[iface].name != u.types[u.managerInterface].name
    requires forall k :: 0 <= k < |extra| ==> u.types[extra[k]].name != u.types[u.managerInterface].name
    ensures var ns := [u.types[iface].name] + TypeNames(u, extra);
            var r := BindTyped(u, New(u), t, iface, extra);
            && r.r.Ok?
            && r.c.slots == New(u).slots + [NewSlot(t, ns)]
            && Extends(New(u).names, r.c.names, ns, 1)
  {
    var c := New(u);
    var ns := [u.types[iface].name] + TypeNames(u, extra);
    assert Unbound(c.names, ns) by {
      forall k | 0 <= k < |ns|
        ensures ns[k] !in c.names
      {
        if k > 0 {
          assert ns[k] == u.types[extra[k - 1]].name;
        }
      }
    }
    FreshTyped(u, c, t, iface, extra, ns);
  }

  /**
    `bind(ApiTestBean, Runnable, List)` and `bind(ApiTestBean, List)` are refused
    with IllegalArgumentException and bind nothing.
  */
  lemma ApiRefused(u: Universe)
    requires World(u)
    ensures BindTyped(u, New(u), ApiTestBean, Runnable, [List]) ==
              Step(New(u), Err(IllegalArgument(ApiTestBean, List)))
    ensures BindTyped(u, New(u), ApiTestBean, List, []) ==
              Step(New(u), Err(IllegalArgument(ApiTestBean, List)))
  {
    ApiTypes(u);
    assert CheckTypes(u, ApiTestBean, Runnable, [List]) == Some(IllegalArgument(ApiTestBean, List));
  }

  /** The container after `bind(ApiTestBean, ApiTestBean, Runnable)`. */
  function ApiBound(u: Universe): (c: Container)
    requires World(u)
    ensures Valid(u, c) && c.state == Running
    ensures "org.yldt.ioc.ApiTestBean" in c.names && c.names["org.yldt.ioc.ApiTestBean"] == 1
    ensures |c.slots| == 2 && c.slots[1] == NewSlot(ApiTestBean, ["org.yldt.ioc.ApiTestBean", "java.lang.Runnable"])
  {
    ApiBoundFacts(u);
    BindTyped(u, New(u), ApiTestBean, ApiTestBean, [Runnable]).c
  }

  lemma ApiBoundFacts(u: Universe)
    requires World(u)
    ensures var c := BindTyped(u, New(u), ApiTestBean, ApiTestBean, [Runnable]).c;
            && Valid(u, c) && c.state == Running
            && "org.yldt.ioc.ApiTestBean" in c.names && c.names["org.yldt.ioc.ApiTestBean"] == 1
            && |c.slots| == 2 && c.slots[1] == NewSlot(ApiTestBean, ["org.yldt.ioc.ApiTestBean", "java.lang.Runnable"])
  {
    var c0 := New(u);
    ApiTypes(u);
    var ns := ["org.yldt.ioc.ApiTestBean", "java.lang.Runnable"];
    assert [u.types[ApiTestBean].name] + TypeNames(u, [Runnable]) == ns;
    IntoNew(u, ApiTestBean, ApiTestBean, [Runnable]);
    var c := BindTyped(u, c0, ApiTestBean, ApiTestBean, [Runnable]).c;
    NewlyBound(c0.names, c.names, ns, 1, 0);
    assert |c0.slots| == 1 && c.slots == c0.slots + [NewSlot(ApiTestBean, ns)];
  }

  /** After `bind(ApiTestBean, ApiTestBean, Runnable)`, a lookup as `Runnable` builds an ApiTestBean. */
  lemma ApiBuilt(u: Universe)
    requires World(u)
    ensures var r := GetBean(u, ApiBound(u), "org.yldt.ioc.ApiTestBean", Runnable);
            r.r == Ok(Made(ApiBound(u).nextId, ApiTestBean))
  {
    var c := ApiBound(u);
    ApiTypes(u);
    LeafBuilds(u, c, "org.yldt.ioc.ApiTestBean", Runnable);
  }

  /**
    After that lookup, the same name looked up as `ApplicationBeanManager` fails
    with a type error.
  */
  lemma BadBeanType(u: Universe)
    requires World(u)
    ensures var r := GetBean(u, ApiBound(u), "org.yldt.ioc.ApiTestBean", Runnable);
            && r.r.Ok? && r.r.value.rtype == ApiTestBean
            && GetBean(u, r.c, "org.yldt.ioc.ApiTestBean", ManagerImpl) ==
                 Step(r.c, Err(WrongType("org.yldt.ioc.ApiTestBean", ApiTestBean, ManagerImpl)))
  {
    ApiBuilt(u);
    ApiTypes(u);
    RefusedAs(u, ApiBound(u), "org.yldt.ioc.ApiTestBean", Runnable, ManagerImpl);
  }

  /** A typed bind of a fitting class under names none of which is bound succeeds. */
  lemma FreshTyped(u: Universe, c: Container, t: TypeId, iface: TypeId, extra: seq<TypeId>, ns: seq<string>)
    requires Valid(u, c) && c.state == Running && t < |u.types| && iface < |u.types|
    requires forall k :: 0 <= k < |extra| ==> extra[k] < |u.types|
    requires Assignable(u, t, iface) && forall k :: 0 <= k < |extra| ==> Assignable(u, t, extra[k])
    requires ns == [u.types[iface].name] + TypeNames(u, extra)
    requires forall k :: 0 <= k < |ns| ==> ns[k] !in c.names
    ensures var r := BindTyped(u, c, t, iface, extra);
            && r.r.Ok?
            && r.c.slots == c.slots + [NewSlot(t, ns)]
            && Extends(c.names, r.c.names, ns, |c.slots|)
  {
    assert Fits(u, t, iface, extra);
  }

  /** `bind(Class)` of a class with no `@Bean` names whose own name is free succeeds. */
  lemma FreshType(u: Universe, c: Container, t: TypeId)
    requires Valid(u, c) && c.state == Running && t < |u.types|
    requires u.types[t].beanNames == [] && u.types[t].name !in c.names
    ensures var r := BindType(u, c, t);
            && r.r.Ok?
            && r.c.slots == c.slots + [NewSlot(t, [u.types[t].name])]
            && Extends(c.names, r.c.names, [u.types[t].name], |c.slots|)
  {
    assert Unbound(c.names, [u.types[t].name]);
  }

  /** After `bind(Class)` of such a class, its name is bound to the new last resource and every other name stays. */
  lemma Added(u: Universe, c: Container, t: TypeId)
    requires Valid(u, c) && c.state == Running && t < |u.types|
    requires u.types[t].beanNames == [] && u.types[t].name !in c.names
    ensures var c' := BindType(u, c, t).c;
            && Valid(u, c') && c'.state == Running
            && c'.slots == c.slots + [NewSlot(t, [u.types[t].name])]
            && |c'.slots| == |c.slots| + 1 && c'.slots[|c.slots|] == NewSlot(t, [u.types[t].name])
            && (forall j :: 0 <= j < |c.slots| ==> c'.slots[j] == c.slots[j])
            && u.types[t].name in c'.names && c'.names[u.types[t].name] == |c.slots|
            && (forall n :: n in c.names ==> n in c'.names && c'.names[n] == c.names[n])
            && forall n :: n in c'.names ==> n in c.names || n == u.types[t].name
  {
    FreshType(u, c, t);
    NewlyBound(c.names, BindType(u, c, t).c.names, [u.types[t].name], |c.slots|, 0);
  }

  lemma NewlyBound(m: map<string, nat>, m': map<string, nat>, ns: seq<string>, i: nat, k: nat)
    requires Extends(m, m', ns, i) && k < |ns| && ns[k] !in m
    ensures ns[k] in m' && m'[ns[k]] == i
  {
    assert ns[k] in ns;
  }

  /** A bean a lookup returned, looked up again as a type it does not have, is refused and nothing changes. */
  lemma RefusedAs(u: Universe, c: Container, name: string, t1: TypeId, t2: TypeId)
    requires Valid(u, c) && c.state == Running && t1 < |u.types| && t2 < |u.types|
    requires GetBean(u, c, name, t1).r.Ok?
    requires !Assignable(u, GetBean(u, c, name, t1).r.value.rtype, t2)
    ensures var r := GetBean(u, c, name, t1);
            GetBean(u, r.c, name, t2) == Step(r.c, Err(WrongType(name, r.r.value.rtype, t2)))
  {
  }

  /** The made-up classes carry no `@Bean` names, so `bind(Class)` uses their class names. */
  lemma MadeUpTypes(u: Universe)
    requires World(u)
    ensures u.types[Engine].beanNames == [] && u.types[Engine].name == "org.example.Engine"
    ensures u.types[Car].beanNames == [] && u.types[Car].name == "org.example.Car"
  {
  }

  /** The container after `bind(Engine.class)`. */
  function EngineBound(u: Universe): (c: Container)
    requires World(u)
    ensures Valid(u, c) && c.state == Running
    ensures "org.example.Engine" in c.names && c.names["org.example.Engine"] == 1
    ensures "org.example.Car" !in c.names
    ensures |c.slots| == 2 && c.slots[1] == NewSlot(Engine, ["org.example.Engine"])
  {
    var c0 := New(u);
    MadeUpTypes(u);
    assert "org.example.Engine" !in c0.names && "org.example.Car" !in c0.names && |c0.slots| == 1;
    Added(u, c0, Engine);
    BindType(u, c0, Engine).c
  }

  /** The container after `bind(Engine.class)` and `bind(Car.class)`. */
  function CarBound(u: Universe): (c: Container)
    requires World(u)
    ensures Valid(u, c) && c.state == Running
    ensures "org.example.Engine" in c.names && c.names["org.example.Engine"] == 1
    ensures |c.slots| == 3 && c.slots[1] == NewSlot(Engine, ["org.example.Engine"])
    ensures "org.example.Car" in c.names && c.names["org.example.Car"] == 2
    ensures c.slots[2] == NewSlot(Car, ["org.example.Car"])
  {
    var c1 := EngineBound(u);
    MadeUpTypes(u);
    Added(u, c1, Car);
    BindType(u, c1, Car).c
  }

  /**
    `Car` needs an `Engine`, whose constructor throws: the lookup of `Car` fails
    with the constructor's exception wrapped once, naming `Car` and `Engine`, and
    afterwards both resources are stuck: each further lookup reports a cycle.
  */
  lemma ThrowingDependency(u: Universe)
    requires World(u)
    ensures var r := GetBeanOfType(u, CarBound(u), Car);
            && r.r == Err(Unsatisfied(Car, Engine, ConstructorThrew("org.example.Engine", "boom")))
            && GetBeanOfType(u, r.c, Car) == Step(r.c, Err(Cycle("org.example.Car")))
            && GetBeanOfType(u, r.c, Engine) == Step(r.c, Err(Cycle("org.example.Engine")))
  {
    ThrowingDependencyIn(u, CarBound(u));
  }

  /** The run of `ThrowingDependency` from any state where `Engine` and `Car` are bound but not built. */
  lemma ThrowingDependencyIn(u: Universe, c: Container)
    requires World(u) && Valid(u, c) && c.state == Running
    requires "org.example.Engine" in c.names && c.names["org.example.Engine"] == 1
    requires |c.slots| == 3 && c.slots[1] == NewSlot(Engine, ["org.example.Engine"])
    requires "org.example.Car" in c.names && c.names["org.example.Car"] == 2
    requires c.slots[2] == NewSlot(Car, ["org.example.Car"])
    ensures var r := GetBean(u, c, "org.example.Car", Car);
            && r.r == Err(Unsatisfied(Car, Engine, ConstructorThrew("org.example.Engine", "boom")))
            && GetBean(u, r.c, "org.example.Car", Car) == Step(r.c, Err(Cycle("org.example.Car")))
            && GetBean(u, r.c, "org.example.Engine", Engine) == Step(r.c, Err(Cycle("org.example.Engine")))
  {
    assert DependencyName(u, Dependency(None, Engine)) == "org.example.Engine";
    ThrowPropagates(u, c, "org.example.Car", Car, "org.example.Engine", "boom");
    var r := GetBean(u, c, "org.example.Car", Car);
    PoisonedFailsForever(u, r.c, r.c, "org.example.Car", Car);
    PoisonedFailsForever(u, r.c, r.c, "org.example.Engine", Engine);
  }
}

=== FILE: sessions.dfy ===
/**
  The container over its whole life: any sequence of public calls, applied one
  after another. Over such a session the hooks keep their promises: no resource
  gets onStart twice, every onShutdown goes to a bean that got onStart earlier,
  and once shut down the container never changes again except for further
  onShutdown calls.
*/
module Sessions {
  import opened Wrappers
  import opened Types
  import opened Errors
  import opened Resources
  import opened ManagerState
  import opened Lifecycle
  import opened Binding
  import opened Lookup
  import opened Listing
  import opened Properties

  /** One public call of `ResourceManager`. */
  datatype Op =
    | BindClass(t: TypeId)                                           // bind(Class)
    | BindAs(t: TypeId, iface: TypeId, extra: seq<TypeId>)           // bind(Class, Class, Class...)
    | BindNamed(t: TypeId, name: string, more: seq<string>)          // bind(Class, String, String...)
    | BindInstance(o: Option<Obj>)                                   // bindObject(Object)
    | BindInstanceNamed(o: Option<Obj>, name: string, more: seq<string>)  // bindObject(Object, String, String...)
    | BindInstanceAs(obj: Obj, iface: TypeId, extra: seq<TypeId>)    // bindObject(Object, Class, Class...)
    | Get(name: string, expected: TypeId)                            // getBean(String, Class)
    | ListAll(keys: seq<string>)                                     // listBeans()
    | StartEvery(keys: seq<string>)                                  // startAll()
    | Stop                                                           // shutdown()
  {
    /**
      `keys` is the order in which the name map happens to be iterated. The
      sessions allow any sequence there, so they cover every order the map can
      produce. Iterating no names at all lists nothing and cannot fail.
    */
    predicate ListsNothing()
    {
      (ListAll? || StartEvery?) && keys == []
    }
  }

  /** Every class a call mentions belongs to the universe. */
  predicate OpValid(u: Universe, op: Op)
  {
    match op
    case BindClass(t) => t < |u.types|
    case BindAs(t, iface, extra) => t < |u.types| && iface < |u.types| && forall k :: 0 <= k < |extra| ==> extra[k] < |u.types|
    case BindNamed(t, _, _) => t < |u.types|
    case BindInstance(o) => o.Some? ==> o.value.rtype < |u.types|
    case BindInstanceNamed(o, _, _) => o.Some? ==> o.value.rtype < |u.types|
    case BindInstanceAs(o, iface, extra) =>
      o.rtype < |u.types| && iface < |u.types| && forall k :: 0 <= k < |extra| ==> extra[k] < |u.types|
    case Get(_, t) => t < |u.types|
    case ListAll(_) => true
    case StartEvery(_) => true
    case Stop => true
  }

  function Unit(s: Step<()>): (r: Step<Option<Obj>>)
    ensures r.c == s.c && r.r.Ok? == s.r.Ok?
  {
    Step(s.c, if s.r.Ok? then Ok(None) else Err(s.r.error))
  }

  /**
    The loop shared by `listBeans` and `startAll`: every name in `keys` looked up
    as an `Object`, stopping at the first failure. The set of beans is dropped.
  */
  function Sweep(u: Universe, c: Container, keys: seq<string>): (r: Step<Option<Obj>>)
    requires Valid(u, c)
    ensures Valid(u, r.c) && Evolves(c, r.c) && Keeps(c, r.c) && Grows(c, r.c)
    ensures r.r.Ok? ==> r.r.value.None? && forall n :: n in keys ==> Started(r.c, n)
    ensures c.state == Shutdown ==> r.c == c && (r.r.Err? <==> keys != [])
  {
    var l := Collect(u, c, keys);
    EvolvesKeeps(c, l.c);
    Step(l.c, if l.r.Ok? then Ok(None) else Err(l.r.error))
  }

  /** One of the bind calls; it answers with nothing. */
  function BindStep(u: Universe, c: Container, op: Op): (r: Step<Option<Obj>>)
    requires Valid(u, c) && OpValid(u, op)
    requires !op.Get? && !op.ListAll? && !op.StartEvery? && !op.Stop?
    ensures Valid(u, r.c) && Keeps(c, r.c) && OnlyBinds(c, r.c)
    ensures r.r.Ok? ==> r.r.value.None?
    ensures c.state == Shutdown ==> r.c == c && r.r.Err?
  {
    match op
    case BindClass(t) => Unit(BindType(u, c, t))
    case BindAs(t, iface, extra) => Unit(BindTyped(u, c, t, iface, extra))
    case BindNamed(t, name, more) => Unit(BindNames(u, c, t, [name] + more))
    case BindInstance(o) => Unit(BindObject(u, c, o))
    case BindInstanceNamed(o, name, more) => Unit(BindObjectNames(u, c, o, [name] + more))
    case BindInstanceAs(o, iface, extra) => Unit(BindObjectTyped(u, c, o, iface, extra))
  }

  /** A bind leaves every existing resource exactly as it was. */
  lemma BindGrows(c: Container, c': Container)
    requires Keeps(c, c') && OnlyBinds(c, c')
    ensures Grows(c, c')
  {
    forall j | 0 <= j < |c.slots|
      ensures SlotEvolves(c.slots[j], c'.slots[j])
    {
      assert c'.slots[j] == c.slots[j];
    }
  }

  /** `getBean(String, Class)`; it answers with the bean. */
  function GetStep(u: Universe, c: Container, name: string, t: TypeId): (r: Step<Option<Obj>>)
    requires Valid(u, c) && t < |u.types|
    ensures Valid(u, r.c) && Evolves(c, r.c) && Keeps(c, r.c) && Grows(c, r.c)
    ensures r.r.Ok? ==> r.r.value.Some? && Holds(r.c, name, r.r.value.value)
    ensures c.state == Shutdown ==> r.c == c && r.r.Err?
  {
    var g := GetBean(u, c, name, t);
    EvolvesKeeps(c, g.c);
    Step(g.c, if g.r.Ok? then Ok(Some(g.r.value)) else Err(g.r.error))
  }

  /** `shutdown()`; it answers with nothing. */
  function StopStep(u: Universe, c: Container): (r: Step<Option<Obj>>)
    requires Valid(u, c)
    ensures Valid(u, r.c) && Keeps(c, r.c) && Grows(c, r.c)
    ensures r.c.state == Shutdown && r.r == Ok(None)
    ensures r.c.slots == c.slots && r.c.names == c.names && r.c.startedOrder == c.startedOrder
    ensures c.trace <= r.c.trace
  {
    var c' := ShutdownContainer(u, c);
    assert c.trace <= c'.trace by { assert c'.trace[..|c.trace|] == c.trace; }
    Step(c', Ok(None))
  }

  /** Performs one call; a lookup answers with the bean, every other call with nothing. */
  function Apply(u: Universe, c: Container, op: Op): (r: Step<Option<Obj>>)
    requires Valid(u, c) && OpValid(u, op)
    ensures Valid(u, r.c) && Keeps(c, r.c) && Grows(c, r.c)
    ensures c.trace <= r.c.trace && c.startedOrder <= r.c.startedOrder
    ensures op.Stop? ==> r.c.state == Shutdown
    ensures !op.Stop? ==> r.c.state == c.state
    ensures c.state == Shutdown && !op.Stop? ==> r.c == c
    ensures c.state == Shutdown && !op.Stop? && !op.ListsNothing() ==> r.r.Err?
    ensures op.Get? && r.r.Ok? ==> r.r.value.Some? && Holds(r.c, op.name, r.r.value.value)
    ensures (op.ListAll? || op.StartEvery?) && r.r.Ok? ==> forall n :: n in op.keys ==> Started(r.c, n)
    ensures c.state == Shutdown ==> r.c.slots == c.slots && r.c.names == c.names && r.c.startedOrder == c.startedOrder
  {
    match op
    case Get(name, t) => GetStep(u, c, name, t)
    case ListAll(keys) => Sweep(u, c, keys)
    case StartEvery(keys) => Sweep(u, c, keys)
    case Stop => StopStep(u, c)
    case _ =>
      var r := BindStep(u, c, op);
      BindGrows(c, r.c);
      r
  }

  predicate OpsValid(u: Universe, ops: seq<Op>)
  {
    forall k :: 0 <= k < |ops| ==> OpValid(u, ops[k])
  }

  /** The state after performing `ops` in order; a failing call does not stop the session. */
  function Run(u: Universe, c: Container, ops: seq<Op>): (c': Container)
    requires Valid(u, c) && OpsValid(u, ops)
    ensures Valid(u, c') && Keeps(c, c') && Grows(c, c')
    ensures c.trace <= c'.trace && c.startedOrder <= c'.startedOrder
    ensures c.state == Shutdown ==>
              && c'.state == Shutdown
              && c'.slots == c.slots && c'.names == c.names && c'.startedOrder == c.startedOrder
    decreases |ops|
  {
    if ops == [] then c
    else
      var a := Apply(u, c, ops[0]);
      var c' := Run(u, a.c, ops[1..]);
      KeepsTransitive(c, a.c, c');
      GrowsTransitive(c, a.c, c');
      c'
  }

  /**
    After shutdown, whatever a session does before it, every later bind, lookup
    and listing is refused; only a listing that iterates no names answers, with nothing.
  */
  lemma ShutdownIsFinal(u: Universe, c: Container, ops: seq<Op>, k: nat)
    requires Valid(u, c) && OpsValid(u, ops) && c.state == Shutdown
    requires k < |ops| && !ops[k].Stop?
    ensures OpsValid(u, ops[..k])
    ensures Apply(u, Run(u, c, ops[..k]), ops[k]).r.Err? || ops[k].ListsNothing()
  {
    assert OpsValid(u, ops[..k]) by {
      forall j | 0 <= j < k
        ensures OpValid(u, ops[..k][j])
      {
        assert ops[..k][j] == ops[j];
      }
    }
  }

  /** The first entries of the trace are the onStart calls of the started list, in list order. */
  predicate StartsRecorded(c: Container)
  {
    && |c.startedOrder| <= |c.trace|
    && forall k :: 0 <= k < |c.startedOrder| ==>
         && c.startedOrder[k] < |c.slots|
         && c.slots[c.startedOrder[k]].obj.Some?
         && c.trace[k] == OnStart(c.startedOrder[k], c.slots[c.startedOrder[k]].obj.value)
  }

  /** No resource received onStart twice. */
  predicate StartsOnce(c: Container)
  {
    forall a, b :: 0 <= a < b < |c.trace| && c.trace[a].OnStart? && c.trace[b].OnStart? ==>
      c.trace[a].slot != c.trace[b].slot
  }

  /** Every onShutdown went to a bean that received onStart earlier. */
  predicate StopsFollowStarts(c: Container)
  {
    forall b :: 0 <= b < |c.trace| && c.trace[b].OnShutdown? ==>
      exists a :: 0 <= a < b && c.trace[a] == OnStart(c.trace[b].slot, c.trace[b].bean)
  }

  /** What the hook history of a container always satisfies. */
  predicate Lawful(c: Container)
  {
    StartsRecorded(c) && StartsOnce(c) && StopsFollowStarts(c)
  }

  lemma RunningLawful(u: Universe, c: Container)
    requires Valid(u, c) && c.state == Running
    ensures Lawful(c)
  {
    forall k | 0 <= k < |c.startedOrder|
      ensures c.slots[c.startedOrder[k]].obj.Some?
      ensures c.trace[k] == OnStart(c.startedOrder[k], c.slots[c.startedOrder[k]].obj.value)
    {
      assert c.trace[k].OnStart? && c.trace[k].slot == c.startedOrder[k];
    }
    forall a, b | 0 <= a < b < |c.trace|
      ensures c.trace[a].slot != c.trace[b].slot
    {
      assert c.trace[a].slot == c.startedOrder[a] && c.trace[b].slot == c.startedOrder[b];
    }
  }

  /** What shutdown does to the trace: an onShutdown per started-list entry, appended. */
  predicate Stopped(c: Container, c': Container)
  {
    && c' == c.(trace := c'.trace, state := Shutdown)
    && |c'.trace| == |c.trace| + |c.startedOrder|
    && c'.trace[..|c.trace|] == c.trace
    && forall k :: 0 <= k < |c.startedOrder| ==>
         && c.startedOrder[k] < |c.slots| && c.slots[c.startedOrder[k]].obj.Some?
         && c'.trace[|c.trace| + k] == OnShutdown(c.startedOrder[k], c.slots[c.startedOrder[k]].obj.value)
  }

  /** Shutdown appends, for each started-list entry, an onShutdown matching its recorded onStart. */
  lemma StopLawful(u: Universe, c: Container)
    requires Valid(u, c) && Lawful(c)
    ensures Lawful(ShutdownContainer(u, c))
  {
    var c' := ShutdownContainer(u, c);
    StopEventsExact(u, c, c.startedOrder);
    assert Stopped(c, c');
    StopKeepsRecord(c, c');
    StopKeepsOnce(c, c');
    StopFollows(c, c');
  }

  lemma StopKeepsRecord(c: Container, c': Container)
    requires StartsRecorded(c) && Stopped(c, c')
    ensures StartsRecorded(c')
  {
    forall k | 0 <= k < |c'.startedOrder|
      ensures c'.trace[k] == c.trace[k]
    {
      assert c'.trace[..|c.trace|][k] == c.trace[k];
    }
  }

  lemma StopKeepsOnce(c: Container, c': Container)
    requires StartsOnce(c) && Stopped(c, c')
    ensures StartsOnce(c')
  {
    var n := |c.trace|;
    forall b | n <= b < |c'.trace|
      ensures c'.trace[b].OnShutdown?
    {
      var k := b - n;
      assert c'.trace[n + k] == OnShutdown(c.startedOrder[k], c.slots[c.startedOrder[k]].obj.value);
    }
    forall a, b | 0 <= a < b < |c'.trace| && c'.trace[a].OnStart? && c'.trace[b].OnStart?
      ensures c'.trace[a].slot != c'.trace[b].slot
    {
      assert c'.trace[..n][a] == c.trace[a] && c'.trace[..n][b] == c.trace[b];
    }
  }

  lemma StopFollows(c: Container, c': Container)
    requires StartsRecorded(c) && StopsFollowStarts(c) && Stopped(c, c')
    ensures StopsFollowStarts(c')
  {
    var n := |c.trace|;
    forall b | 0 <= b < |c'.trace| && c'.trace[b].OnShutdown?
      ensures exists a :: 0 <= a < b && c'.trace[a] == OnStart(c'.trace[b].slot, c'.trace[b].bean)
    {
      if b < n {
        assert c'.trace[..n][b] == c.trace[b];
        var a :| 0 <= a < b && c.trace[a] == OnStart(c.trace[b].slot, c.trace[b].bean);
        assert c'.trace[..n][a] == c.trace[a];
      } else {
        var k := b - n;
        assert c'.trace[n + k] == OnShutdown(c.startedOrder[k], c.slots[c.startedOrder[k]].obj.value);
        assert c'.trace[..n][k] == c.trace[k];
      }
    }
  }

  lemma ApplyLawful(u: Universe, c: Container, op: Op)
    requires Valid(u, c) && OpValid(u, op) && Lawful(c)
    ensures Lawful(Apply(u, c, op).c)
  {
    if op.Stop? {
      StopApplied(u, c, op);
      StopLawful(u, c);
    } else {
      OtherLawful(u, c, Apply(u, c, op).c);
    }
  }

  /** Performing a shutdown call is `ShutdownContainer`. */
  lemma StopApplied(u: Universe, c: Container, op: Op)
    requires Valid(u, c) && op.Stop?
    ensures Apply(u, c, op).c == ShutdownContainer(u, c)
  {
    assert Apply(u, c, op) == StopStep(u, c);
  }

  /** A call other than shutdown either runs on a running container or changes nothing. */
  lemma OtherLawful(u: Universe, c: Container, c': Container)
    requires Lawful(c) && Valid(u, c')
    requires c'.state == c.state && (c.state == Shutdown ==> c' == c)
    ensures Lawful(c')
  {
    if c.state == Running {
      RunningLawful(u, c');
    }
  }

  /** Over any session, the hook history stays lawful. */
  lemma {:induction false} RunLawful(u: Universe, c: Container, ops: seq<Op>)
    requires Valid(u, c) && OpsValid(u, ops) && Lawful(c)
    ensures Lawful(Run(u, c, ops))
    decreases |ops|
  {
    if ops != [] {
      ApplyLawful(u, c, ops[0]);
      assert OpsValid(u, ops[1..]) by {
        forall k | 0 <= k < |ops[1..]|
          ensures OpValid(u, ops[1..][k])
        {
          assert ops[1..][k] == ops[k + 1];
        }
      }
      RunLawful(u, Apply(u, c, ops[0]).c, ops[1..]);
    }
  }

  /**
    From a new container, whatever calls follow (shutdown included, any number of
    times): no resource ever receives onStart twice, and onShutdown only ever goes
    to a bean that received onStart before it.
  */
  lemma HookHistory(u: Universe, ops: seq<Op>)
    requires ValidUniverse(u) && OpsValid(u, ops)
    ensures Lawful(Run(u, New(u), ops))
  {
    RunningLawful(u, New(u));
    RunLawful(u, New(u), ops);
  }

  /**
    The container's own name stays bound to the container itself for the whole of
    any session, so the name map is never empty and a listing always has a name
    to look up.
  */
  lemma ManagerAlwaysBound(u: Universe, ops: seq<Op>)
    requires ValidUniverse(u) && OpsValid(u, ops)
    ensures var c := Run(u, New(u), ops);
            && u.types[u.managerInterface].name in c.names
            && c.names[u.types[u.managerInterface].name] == 0
            && c.slots[0].obj == Some(Self(u))
            && |c.names| > 0
  {
    var c := Run(u, New(u), ops);
    assert u.types[u.managerInterface].name in c.names;
  }

  /** A bean once stored under a name stays there, the same object, for the rest of any session. */
  lemma BeanNeverReplaced(u: Universe, c: Container, ops: seq<Op>, name: string, o: Obj)
    requires Valid(u, c) && OpsValid(u, ops) && Holds(c, name, o)
    ensures Holds(Run(u, c, ops), name, o)
  {
  }

  /**
    A resource whose construction failed stays stuck for the rest of any session,
    binds and listings included: every later lookup of it fails while running.
  */
  lemma PoisonedForever(u: Universe, c: Container, ops: seq<Op>, name: string, t: TypeId)
    requires Valid(u, c) && OpsValid(u, ops) && Poisoned(c, name) && t < |u.types|
    ensures var c' := Run(u, c, ops);
            var s := c'.slots[c'.names[name]];
            c'.state == Running ==>
              GetBean(u, c', name, t) ==
                Step(c', Err(if Assignable(u, s.component, t) then Cycle(name) else WrongType(name, s.component, t)))
  {
    var c' := Run(u, c, ops);
    if c'.state == Running {
      PoisonedFailsForever(u, c, c', name, t);
    }
  }
}

=== FILE: state.dfy ===
/**
  The state of an `ApplicationBeanManager`: the name-to-resource map, the resources
  themselves, the started-order list, the running state, and the trace of
  lifecycle hooks called so far. Resources are identified by their index in
  `slots`; the map sends a name to that index.
*/
module ManagerState {
  import opened Wrappers
  import opened Types
  import opened Errors
  import opened Resources

  /** `ResourceManager.State`. */
  datatype State = Running | Shutdown

  /** A lifecycle hook call on the bean of the resource at index `slot`. */
  datatype Event = OnStart(slot: nat, bean: Obj) | OnShutdown(slot: nat, bean: Obj)

  datatype Container = Container(
    names: map<string, nat>,
    slots: seq<Slot>,
    startedOrder: seq<nat>,          // resources whose onStart ran, in that order
    state: State,
    trace: seq<Event>,
    nextId: nat,                     // identity for the next object the container builds
    injected: map<nat, seq<Obj>>)    // for each built resource, what was injected into its object

  /** The new state after an operation, and what the operation returned or raised. */
  datatype Step<+T> = Step(c: Container, r: Result<T, Error>)

  predicate Distinct<T(==)>(s: seq<T>)
  {
    forall p, q :: 0 <= p < q < |s| ==> s[p] != s[q]
  }

  predicate SlotValid(u: Universe, s: Slot)
  {
    && s.component < |u.types|
    && (s.obj.Some? ==> s.obj.value.rtype == s.component)
    && (s.underConstruction ==> s.obj.None?)
    && (s.started ==> s.obj.Some?)
  }

  /** The resource's bean has been started and is a LifeCycle bean. */
  predicate StartedLifeCycle(u: Universe, s: Slot)
  {
    s.started && s.obj.Some? && LifeCycleBean(u, s.obj.value)
  }

  /** While running, the trace is exactly one onStart per entry of the started list, in list order. */
  predicate TraceMatches(c: Container)
  {
    && |c.trace| == |c.startedOrder|
    && forall k :: 0 <= k < |c.trace| ==>
         && c.trace[k].OnStart?
         && c.trace[k].slot == c.startedOrder[k]
         && c.startedOrder[k] < |c.slots|
         && c.slots[c.startedOrder[k]].obj == Some(c.trace[k].bean)
  }

  /** `name` is bound to a resource whose object is `o` and which has been started. */
  predicate Holds(c: Container, name: string, o: Obj)
  {
    && name in c.names
    && c.names[name] < |c.slots|
    && c.slots[c.names[name]].obj == Some(o)
    && c.slots[c.names[name]].started
  }

  /** `o` is what the container hands out for dependency `p`, and it has the declared type. */
  predicate Supplies(u: Universe, c: Container, p: Point, o: Obj)
  {
    && p.dep.declared < |u.types|
    && o.rtype < |u.types|
    && Holds(c, DependencyName(u, p.dep), o)
    && Assignable(u, o.rtype, p.dep.declared)
  }

  predicate Supplied(u: Universe, c: Container, ps: seq<Point>, os: seq<Obj>)
  {
    |os| == |ps| && forall k :: 0 <= k < |ps| ==> Supplies(u, c, ps[k], os[k])
  }

  /** Every value injected into a built object is the bean its dependency resolves to. */
  predicate WiringValid(u: Universe, c: Container)
  {
    forall i :: i in c.injected ==>
      && i < |c.slots|
      && c.slots[i].obj.Some?
      && c.slots[i].component < |u.types|
      && Supplied(u, c, AllPoints(c.slots[i].component, u.types[c.slots[i].component]), c.injected[i])
  }

  /** Dependency `p` is looked up under a name bound to resource `j`. */
  predicate Resolves(u: Universe, c: Container, p: Point, j: nat)
  {
    && p.dep.declared < |u.types|
    && DependencyName(u, p.dep) in c.names
    && c.names[DependencyName(u, p.dep)] == j
  }

  /** The built object of resource `i` had a dependency served by resource `j`. */
  predicate DependsOn(u: Universe, c: Container, i: nat, j: nat)
  {
    && i in c.injected
    && i < |c.slots|
    && c.slots[i].component < |u.types|
    && exists p :: p in AllPoints(c.slots[i].component, u.types[c.slots[i].component]) && Resolves(u, c, p, j)
  }

  /** In the started list, every resource comes after the resources its object depends on. */
  predicate StartsAfterDeps(u: Universe, c: Container)
  {
    forall p, q ::
      (0 <= p < |c.startedOrder| && 0 <= q < |c.startedOrder| &&
       DependsOn(u, c, c.startedOrder[p], c.startedOrder[q])) ==> q < p
  }

  /** The invariant of every state the container can reach. */
  predicate Valid(u: Universe, c: Container)
  {
    && ValidUniverse(u)
    && (forall n :: n in c.names ==> c.names[n] < |c.slots|)
    && (forall j :: 0 <= j < |c.slots| ==> SlotValid(u, c.slots[j]))
    && Distinct(c.startedOrder)
    && (forall k :: 0 <= k < |c.startedOrder| ==> c.startedOrder[k] < |c.slots|)
    && (forall j :: 0 <= j < |c.slots| ==> (j in c.startedOrder <==> StartedLifeCycle(u, c.slots[j])))
    && (c.state == Running ==> TraceMatches(c))
    && WiringValid(u, c)
    && StartsAfterDeps(u, c)
  }

  /**
    How lookup may change the container: no name, resource type or resource
    name list changes, no object is replaced, nothing is unstarted, and the
    started list and trace only grow at their end.
  */
  predicate Evolves(c: Container, c': Container)
  {
    && c'.names == c.names
    && c'.state == c.state
    && |c'.slots| == |c.slots|
    && (forall j :: 0 <= j < |c.slots| ==> SlotEvolves(c.slots[j], c'.slots[j]))
    && c.startedOrder <= c'.startedOrder
    && c.trace <= c'.trace
    && c.nextId <= c'.nextId
    && (forall i :: i in c.injected ==> i in c'.injected && c'.injected[i] == c.injected[i])
  }

  /** What every operation keeps: bound names, existing objects and started flags. */
  predicate Keeps(c: Container, c': Container)
  {
    && (forall n :: n in c.names ==> n in c'.names && c'.names[n] == c.names[n])
    && |c.slots| <= |c'.slots|
    && (forall j :: 0 <= j < |c.slots| ==>
          && (c.slots[j].obj.Some? ==> c'.slots[j].obj == c.slots[j].obj)
          && (c.slots[j].started ==> c'.slots[j].started))
  }

  lemma EvolvesKeeps(c: Container, c': Container)
    requires Evolves(c, c')
    ensures Keeps(c, c')
  {
  }

  lemma KeepsTransitive(c1: Container, c2: Container, c3: Container)
    requires Keeps(c1, c2) && Keeps(c2, c3)
    ensures Keeps(c1, c3)
  {
  }

  /**
    What a whole public call keeps: bound names, and every existing resource only
    evolves, so in particular a construction left unfinished stays unfinished.
  */
  predicate Grows(c: Container, c': Container)
  {
    && Keeps(c, c')
    && (forall j :: 0 <= j < |c.slots| ==> SlotEvolves(c.slots[j], c'.slots[j]))
  }

  lemma GrowsTransitive(c1: Container, c2: Container, c3: Container)
    requires Grows(c1, c2) && Grows(c2, c3)
    ensures Grows(c1, c3)
  {
    forall j | 0 <= j < |c1.slots|
      ensures SlotEvolves(c1.slots[j], c3.slots[j])
    {
      assert SlotEvolves(c1.slots[j], c2.slots[j]);
      assert SlotEvolves(c2.slots[j], c3.slots[j]);
    }
  }

  lemma EvolvesTransitive(c1: Container, c2: Container, c3: Container)
    requires Evolves(c1, c2) && Evolves(c2, c3)
    ensures Evolves(c1, c3)
  {
    forall j | 0 <= j < |c1.slots|
      ensures SlotEvolves(c1.slots[j], c3.slots[j])
    {
      assert SlotEvolves(c1.slots[j], c2.slots[j]);
      assert SlotEvolves(c2.slots[j], c3.slots[j]);
    }
  }

  lemma EvolvesUnbuilt(c: Container, c': Container)
    requires Evolves(c, c')
    ensures Unbuilt(c'.slots) <= Unbuilt(c.slots)
  {
    UnbuiltMonotone(c.slots, c'.slots);
  }

  lemma SuppliedKept(u: Universe, c: Container, c': Container, ps: seq<Point>, os: seq<Obj>)
    requires Keeps(c, c') && Supplied(u, c, ps, os)
    ensures Supplied(u, c', ps, os)
  {
    forall k | 0 <= k < |ps|
      ensures Supplies(u, c', ps[k], os[k])
    {
      assert Supplies(u, c, ps[k], os[k]);
    }
  }

  lemma SuppliedConcat(u: Universe, c: Container, ps1: seq<Point>, os1: seq<Obj>, ps2: seq<Point>, os2: seq<Obj>)
    requires Supplied(u, c, ps1, os1) && Supplied(u, c, ps2, os2)
    ensures Supplied(u, c, ps1 + ps2, os1 + os2)
  {
    forall k | 0 <= k < |ps1 + ps2|
      ensures Supplies(u, c, (ps1 + ps2)[k], (os1 + os2)[k])
    {
      if k < |ps1| {
        assert Supplies(u, c, ps1[k], os1[k]);
      } else {
        assert Supplies(u, c, ps2[k - |ps1|], os2[k - |ps1|]);
      }
    }
  }

  /** A wiring that holds in `c` holds in every later state that keeps names and objects. */
  lemma WiringKept(u: Universe, c: Container, c': Container)
    requires WiringValid(u, c) && Keeps(c, c')
    requires forall j :: 0 <= j < |c.slots| ==> c'.slots[j].component == c.slots[j].component
    requires c'.injected == c.injected
    ensures WiringValid(u, c')
  {
    forall i | i in c'.injected
      ensures Supplied(u, c', AllPoints(c'.slots[i].component, u.types[c'.slots[i].component]), c'.injected[i])
    {
      SuppliedKept(u, c, c', AllPoints(c.slots[i].component, u.types[c.slots[i].component]), c.injected[i]);
    }
  }

  /** A dependency of a built object is served by a resource that is built and started. */
  lemma DependsOnStarted(u: Universe, c: Container, i: nat, j: nat)
    requires WiringValid(u, c) && DependsOn(u, c, i, j)
    ensures j < |c.slots| && c.slots[j].started
  {
    var ps := AllPoints(c.slots[i].component, u.types[c.slots[i].component]);
    var p :| p in ps && Resolves(u, c, p, j);
    var k :| 0 <= k < |ps| && ps[k] == p;
    assert Supplies(u, c, ps[k], c.injected[i][k]);
  }

  /** Dependencies recorded in a later state were already recorded in the earlier one. */
  lemma DependsOnKept(u: Universe, c: Container, c': Container, i: nat, j: nat)
    requires WiringValid(u, c) && Keeps(c, c') && i in c.injected
    requires i < |c.slots| && c'.slots[i].component == c.slots[i].component
    requires DependsOn(u, c', i, j)
    ensures DependsOn(u, c, i, j)
  {
    var ps := AllPoints(c.slots[i].component, u.types[c.slots[i].component]);
    var p :| p in ps && Resolves(u, c', p, j);
    var k :| 0 <= k < |ps| && ps[k] == p;
    assert Supplies(u, c, ps[k], c.injected[i][k]);
    assert Resolves(u, c, p, j);
  }

  /** The ordering survives any step that keeps the started list and records no new started object. */
  lemma OrderKept(u: Universe, c: Container, c': Container)
    requires Valid(u, c) && Keeps(c, c') && c'.startedOrder == c.startedOrder
    requires forall j :: 0 <= j < |c.slots| ==> c'.slots[j].component == c.slots[j].component
    requires forall a :: a in c'.startedOrder && a in c'.injected ==> a in c.injected
    ensures StartsAfterDeps(u, c')
  {
    forall p, q | 0 <= p < |c'.startedOrder| && 0 <= q < |c'.startedOrder| &&
      DependsOn(u, c', c'.startedOrder[p], c'.startedOrder[q])
      ensures q < p
    {
      DependsOnKept(u, c, c', c.startedOrder[p], c.startedOrder[q]);
    }
  }
}

=== FILE: types.dfy ===
/**
  The declared type universe that replaces Java reflection.

  Every class the container can see is a `TypeDesc` at an index of `Universe.types`.
  A descriptor lists what reflection would report about the class: its name, the
  names of its `@Bean` annotation, the types it is assignable to, its public
  constructors, the `@Inject` points of its constructor, fields and methods, whether
  it implements `LifeCycle`, and whether its constructor throws.
*/
module Types {
  import opened Wrappers

  type TypeId = nat

  /** A runtime object: objects supplied by a caller and objects the container builds. */
  datatype Obj =
    | External(id: nat, rtype: TypeId)
    | Made(id: nat, rtype: TypeId)

  /** One injected value: an optional `@Inject` name and the declared parameter or field type. */
  datatype Dependency = Dependency(inject: Option<string>, declared: TypeId)

  /** An `@Inject` method, with the class declaring it and its parameters in order. */
  datatype InjectedMethod = InjectedMethod(declaring: TypeId, params: seq<Dependency>)

  /** A dependency together with the class reported as its owner in an unsatisfied-dependency error. */
  datatype Point = Point(declaring: TypeId, dep: Dependency)

  datatype TypeDesc = TypeDesc(
    name: string,
    beanNames: seq<string>,               // `@Bean(name = ...)`; empty when the annotation is absent
    supertypes: set<TypeId>,              // every type this class is assignable to
    publicConstructors: nat,
    constructorParams: seq<Dependency>,
    injectedFields: seq<Dependency>,      // most-derived class first
    injectedMethods: seq<InjectedMethod>, // most-derived class first
    isLifeCycle: bool,
    constructorThrows: Option<string>)    // the exception the constructor raises, if it does

  datatype Universe = Universe(
    types: seq<TypeDesc>,
    objectType: TypeId,        // java.lang.Object
    managerInterface: TypeId,  // ResourceManager
    managerClass: TypeId)      // ApplicationBeanManager

  /** `to.isAssignableFrom(from)`. */
  predicate Assignable(u: Universe, from: TypeId, to: TypeId)
    requires from < |u.types|
  {
    to in u.types[from].supertypes
  }

  /** `bean instanceof LifeCycle`. */
  predicate LifeCycleBean(u: Universe, o: Obj)
  {
    o.rtype < |u.types| && u.types[o.rtype].isLifeCycle
  }

  /** Attaches the owner `owner` to each dependency of `ds`, keeping their order. */
  function Owned(owner: TypeId, ds: seq<Dependency>): (ps: seq<Point>)
    ensures |ps| == |ds|
    ensures forall k :: 0 <= k < |ds| ==> ps[k] == Point(owner, ds[k])
  {
    if ds == [] then [] else [Point(owner, ds[0])] + Owned(owner, ds[1..])
  }

  /** The parameters of the injected methods, method by method, each owned by its declaring class. */
  function MethodPoints(ms: seq<InjectedMethod>): seq<Point>
  {
    if ms == [] then [] else Owned(ms[0].declaring, ms[0].params) + MethodPoints(ms[1..])
  }

  /** The constructor arguments of class `t`. */
  function ConstructorPoints(t: TypeId, d: TypeDesc): seq<Point>
  {
    Owned(t, d.constructorParams)
  }

  /**
    What is injected after instantiation: the fields, reported as owned by the
    object's own class, then the method parameters, owned by their declaring classes.
  */
  function InjectionPoints(t: TypeId, d: TypeDesc): seq<Point>
  {
    Owned(t, d.injectedFields) + MethodPoints(d.injectedMethods)
  }

  /** Every dependency of class `t`, in the order the container resolves them. */
  function AllPoints(t: TypeId, d: TypeDesc): seq<Point>
  {
    ConstructorPoints(t, d) + InjectionPoints(t, d)
  }

  predicate TypeValid(u: Universe, t: TypeId)
    requires t < |u.types|
  {
    var d := u.types[t];
    && t in d.supertypes
    && u.objectType in d.supertypes
    && (forall s :: s in d.supertypes ==> s < |u.types| && u.types[s].supertypes <= d.supertypes)
    && (forall s :: s in d.supertypes && s < |u.types| && u.types[s].isLifeCycle ==> d.isLifeCycle)
    && (forall p :: p in AllPoints(t, d) ==> p.declaring < |u.types| && p.dep.declared < |u.types|)
  }

  /**
    What the JVM guarantees of its classes: assignability is reflexive and transitive,
    everything is an Object, a subclass of a LifeCycle class is LifeCycle too, the
    container class implements ResourceManager, and every injection point names a
    known class.
  */
  predicate ValidUniverse(u: Universe)
  {
    && u.objectType < |u.types|
    && u.managerInterface < |u.types|
    && u.managerClass < |u.types|
    && u.managerInterface in u.types[u.managerClass].supertypes
    && (forall t :: 0 <= t < |u.types| ==> TypeValid(u, t))
  }

  /**
    The bean name a dependency is looked up by: its `@Inject` value when that is
    present and non-empty, otherwise the name of its declared type.
  */
  function DependencyName(u: Universe, d: Dependency): string
    requires d.declared < |u.types|
  {
    if d.inject.None? || d.inject.value == "" then u.types[d.declared].name else d.inject.value
  }

  /** Names of a list of classes, as `toNames` computes them. */
  function TypeNames(u: Universe, ts: seq<TypeId>): (ns: seq<string>)
    requires forall k :: 0 <= k < |ts| ==> ts[k] < |u.types|
    ensures |ns| == |ts|
    ensures forall k :: 0 <= k < |ts| ==> ns[k] == u.types[ts[k]].name
  {
    if ts == [] then [] else [u.types[ts[0]].name] + TypeNames(u, ts[1..])
  }
}

=== FILE: wiring.dfy ===
/**
  When construction with dependencies succeeds and why resolution fails. A class
  whose dependencies are all served by beans already built is built on its first
  lookup. A failed resolution is always the failed lookup of one dependency, made
  in the state the dependencies before it left behind.
*/
module Wiring {
  import opened Wrappers
  import opened Types
  import opened Errors
  import opened Resources
  import opened ManagerState
  import opened Lookup

  /**
    Dependency `p` is served by a bean already there: its name is bound to a
    resource holding an object whose class fits the declared type.
  */
  predicate Ready(u: Universe, c: Container, p: Point)
  {
    && p.dep.declared < |u.types|
    && DependencyName(u, p.dep) in c.names
    && c.names[DependencyName(u, p.dep)] < |c.slots|
    && var s := c.slots[c.names[DependencyName(u, p.dep)]];
       && s.obj.Some?
       && s.obj.value.rtype < |u.types|
       && Assignable(u, s.obj.value.rtype, p.dep.declared)
  }

  /** Lookups never unbind a name or drop an object, so ready dependencies stay ready. */
  lemma ReadyEvolves(u: Universe, c: Container, c': Container, ps: seq<Point>)
    requires Evolves(c, c') && forall p :: p in ps ==> Ready(u, c, p)
    ensures forall p :: p in ps ==> Ready(u, c', p)
  {
    forall p | p in ps
      ensures Ready(u, c', p)
    {
      var j := c.names[DependencyName(u, p.dep)];
      assert SlotEvolves(c.slots[j], c'.slots[j]);
    }
  }

  /** Resolving dependencies that are all ready succeeds and builds no new object. */
  lemma {:induction false} ReadyResolves(u: Universe, c: Container, ps: seq<Point>)
    requires Valid(u, c) && c.state == Running
    requires forall p :: p in ps ==> p.dep.declared < |u.types| && Ready(u, c, p)
    ensures var r := ResolveAll(u, c, ps);
            r.r.Ok? && r.c.nextId == c.nextId
    decreases |ps|
  {
    if ps != [] {
      assert Ready(u, c, ps[0]);
      var g := GetBean(u, c, DependencyName(u, ps[0].dep), ps[0].dep.declared);
      assert g.r.Ok? && g.c.nextId == c.nextId;
      var h := Resolve(u, c, ps[0]);
      assert h == g;
      forall p | p in ps[1..]
        ensures p in ps
      {
      }
      ReadyEvolves(u, c, h.c, ps[1..]);
      ReadyResolves(u, h.c, ps[1..]);
    }
  }

  /**
    A resource under construction whose constructor's arguments resolve, whose one
    public constructor returns, and whose injection points are all ready is built:
    the new object has the resource's class and the identity the container had
    reached once the arguments were resolved.
  */
  lemma ResolvedBuilds(u: Universe, c: Container, name: string, i: nat)
    requires Valid(u, c) && c.state == Running
    requires name in c.names && c.names[name] == i && i < |c.slots|
    requires c.slots[i].underConstruction && c.slots[i].obj.None?
    requires var k := c.slots[i].component;
             && k < |u.types|
             && u.types[k].publicConstructors == 1
             && u.types[k].constructorThrows.None?
             && (forall p :: p in ConstructorPoints(k, u.types[k]) ==> p.dep.declared < |u.types|)
             && ResolveAll(u, c, ConstructorPoints(k, u.types[k])).r.Ok?
             && (forall p :: p in InjectionPoints(k, u.types[k]) ==> Ready(u, c, p))
    ensures var k := c.slots[i].component;
            Build(u, c, name, i).r == Ok(Made(ResolveAll(u, c, ConstructorPoints(k, u.types[k])).c.nextId, k))
  {
    var k := c.slots[i].component;
    var d := u.types[k];
    var a := ResolveAll(u, c, ConstructorPoints(k, d));
    assert SlotEvolves(c.slots[i], a.c.slots[i]);
    var bean := Made(a.c.nextId, k);
    var c2 := a.c.(nextId := a.c.nextId + 1);
    Advance(u, a.c, c2);
    ReadyEvolves(u, c, a.c, InjectionPoints(k, d));
    ReadyEvolves(u, a.c, c2, InjectionPoints(k, d));
    ReadyResolves(u, c2, InjectionPoints(k, d));
    assert Inject(u, c2, name, i, bean, a.r.value).r == Ok(bean);
    assert Instantiate(u, a.c, name, i, a.r.value).r == Ok(bean);
  }

  /**
    A class with one public constructor that returns, whose every constructor
    argument, field and method dependency is served by a bean already built, is
    built on its first lookup: the result is a new object of that class, numbered
    by the container's next object identity.
  */
  lemma DepsBuild(u: Universe, c: Container, name: string, t: TypeId)
    requires Valid(u, c) && t < |u.types| && c.state == Running && name in c.names
    requires IsUnbuilt(c.slots[c.names[name]])
    requires var k := c.slots[c.names[name]].component;
             && Assignable(u, k, t)
             && u.types[k].publicConstructors == 1
             && u.types[k].constructorThrows.None?
             && forall p :: p in AllPoints(k, u.types[k]) ==> Ready(u, c, p)
    ensures GetBean(u, c, name, t).r == Ok(Made(c.nextId, c.slots[c.names[name]].component))
  {
    var i := c.names[name];
    var k := c.slots[i].component;
    var d := u.types[k];
    var c1 := BeginConstruction(u, c, i);
    ReadyEvolves(u, c, c1, AllPoints(k, d));
    forall p | p in ConstructorPoints(k, d)
      ensures Ready(u, c1, p)
    {
      assert p in AllPoints(k, d);
    }
    forall p | p in InjectionPoints(k, d)
      ensures Ready(u, c1, p)
    {
      assert p in AllPoints(k, d);
    }
    ReadyResolves(u, c1, ConstructorPoints(k, d));
    ResolvedBuilds(u, c1, name, i);
    assert Construct(u, c, name, i, t) == Build(u, c1, name, i);
  }

  /** The lookup of `p` in `c` fails, and `r` is that failure wrapped once as an unsatisfied dependency. */
  predicate LookupFails(u: Universe, c: Container, p: Point, r: Step<seq<Obj>>)
    requires Valid(u, c) && p.dep.declared < |u.types|
  {
    var g := GetBean(u, c, DependencyName(u, p.dep), p.dep.declared);
    && g.r.Err?
    && r == Step(g.c, Err(Unsatisfied(p.declaring, p.dep.declared, g.r.error)))
  }

  /**
    Resolution of `ps` from `c` stopped at dependency `k`: the dependencies before
    it were resolved one after the other, each in the state the one before left,
    the lookup of `ps[k]` made in the state they left failed, and `r` is that
    failure wrapped once as an unsatisfied dependency of `ps[k]`'s class.
  */
  predicate FailsAt(u: Universe, c: Container, ps: seq<Point>, k: nat, r: Step<seq<Obj>>)
    requires Valid(u, c) && forall p :: p in ps ==> p.dep.declared < |u.types|
    ensures FailsAt(u, c, ps, k, r) ==> k < |ps| && r.r.Err? && r.r.error.Unsatisfied? && r.r.error.declaring == ps[k].declaring
    decreases |ps|
  {
    && k < |ps|
    && if k == 0 then LookupFails(u, c, ps[0], r)
       else
         var h := Resolve(u, c, ps[0]);
         && h.r.Ok?
         && assert forall p :: p in ps[1..] ==> p in ps;
            FailsAt(u, h.c, ps[1..], k - 1, r)
  }

  /**
    `getBeansForInject` fails exactly when the lookup of one dependency fails, after
    every dependency before it was resolved; the failure is that lookup's, wrapped
    once, and the state is the one that lookup left.
  */
  lemma {:induction false} ResolveAllFailure(u: Universe, c: Container, ps: seq<Point>)
    requires Valid(u, c) && forall p :: p in ps ==> p.dep.declared < |u.types|
    ensures ResolveAll(u, c, ps).r.Err? <==> exists k: nat :: FailsAt(u, c, ps, k, ResolveAll(u, c, ps))
    decreases |ps|
  {
    var r := ResolveAll(u, c, ps);
    if ps != [] {
      var h := Resolve(u, c, ps[0]);
      if h.r.Err? {
        assert FailsAt(u, c, ps, 0, r);
      } else {
        forall p | p in ps[1..]
          ensures p in ps
        {
        }
        var t := ResolveAll(u, h.c, ps[1..]);
        ResolveAllFailure(u, h.c, ps[1..]);
        if t.r.Err? {
          assert r == t;
          var k: nat :| FailsAt(u, h.c, ps[1..], k, t);
          FailsAfterFirst(u, c, ps, k, r);
          assert FailsAt(u, c, ps, k + 1, r);
        } else {
          assert r.r.Ok?;
        }
      }
    }
  }

  /** A failure at `k` after the first dependency resolved is a failure at `k + 1` from the start. */
  lemma FailsAfterFirst(u: Universe, c: Container, ps: seq<Point>, k: nat, r: Step<seq<Obj>>)
    requires Valid(u, c) && |ps| > 0 && forall p :: p in ps ==> p.dep.declared < |u.types|
    requires forall p :: p in ps[1..] ==> p.dep.declared < |u.types|
    requires Resolve(u, c, ps[0]).r.Ok?
    requires FailsAt(u, Resolve(u, c, ps[0]).c, ps[1..], k, r)
    ensures FailsAt(u, c, ps, k + 1, r)
  {
  }
}

=== FILE: wrappers.dfy ===
/** Small failure-carrying datatypes shared by the container model. */
module Wrappers {

  /** An optional value: the model's stand-in for a nullable reference. */
  datatype Option<+T> = None | Some(value: T)

  /** The outcome of an operation that either yields a value or raises an error. */
  datatype Result<+T, +E> = Ok(value: T) | Err(error: E)
}
